=== FILE: README.md ===
# Packing client core: GS1 barcode decoder and packing session store

A Dafny model of the two pieces of logic at the heart of a pharmacy
shipment-packing web client:

- **`parseAIDataMatrix`** (`src/utils/barcode.ts`), which decodes a scanned
  GS1 element string into a GTIN (`ic_code`) and a serial number. It knows
  three Application Identifiers from section 3 of the GS1 General
  Specifications: AI (01), the 14-digit GTIN; AI (17), the 6-digit expiry
  date, used only as a fixed-width skip; and AI (21), the serial. ASCII 29
  (GS) is the FNC1 separator of section 7.8 of the same specification. The
  decoder tries, in order, the human-readable `(01)…(21)…` form, the
  concatenated `01…21…` form, and a search for `17` + six digits + `21` after
  the GTIN. Both regular expressions of `parseAIDataMatrix` are written out as index
  predicates with a leftmost search (`Barcode.ParensMatchAt`,
  `Barcode.Ai17To21At`).
- **`usePackingStore`** (`src/stores/packing.ts`), the session store. It holds
  the step, the employee, the invoice, the scanned serials and the product
  record each scan returned (two index-aligned lists), and the last error and
  success message. It has the getters `totalTarget`, `totalScanned` and
  `isComplete`, and the actions `validateEmployee`, `getInvoiceDetails`,
  `scanProduct`, `removeSerial`, `confirmPacking`, `reset`, `resetScanning`
  and `changeInvoice`.

Every store action is a pure function. An action that awaits the backend
takes the awaited outcome as an argument (`Packing.Call<T>`: the response body,
or a rejection carrying `e.response?.data?.message` and `e.message`). It
returns a `Packing.Step`: the new session, the boolean the action returns, and
the request it posted. The request is `None` when a guard returned before the
network was touched. A `throw new Error(m)` inside a `try` goes through the
same `catch` expression as a rejected request (`Packing.Thrown`).

Files:

| file | module | contents |
|---|---|---|
| `optional.dfy` | `Optional` | `Option` |
| `js_builtins.dfy` | `JsBuiltins` | `startsWith`, `indexOf`, `splice(i, 1)`, `\d`, line terminators, `parseInt(s, 10)` |
| `barcode.dfy` | `Barcode` | the decoder |
| `barcode_properties.dfy` | `BarcodeProperties` | its round trips, precedence, edge cases and test vectors |
| `packing_types.dfy` | `PackingTypes` | the record shapes of `src/types/index.ts` that the store uses |
| `packing.dfy` | `Packing` | the session, getters and actions |
| `packing_properties.dfy` | `PackingProperties` | invariants, action relations and whole-run lemmas |

## Behaviour worth knowing

- `scanProduct` posts the raw scanned string to `/product/get-product-by-serial`. It never calls the
  decoder, never checks the product against the invoice, and never limits scans per product. Its only
  count guard is the invoice-wide `totalScanned >= totalTarget`. The store's own test at
  src/stores/__tests__/packing.spec.ts:247-332 expects an "already fully scanned" rejection that the
  code does not make.
- `confirmPacking` posts `serials: scannedSerials` verbatim, in scan order (`Packing.ConfirmPacking`).
  Nothing allocates serials to invoice lines or emits `doc_line_number`. The tests at
  src/stores/__tests__/packing.spec.ts:149-172 and 238-244 expect both.
- `totalTarget` sums every line's quantity, whether or not the line needs serials.
- `getInvoiceDetails` does not clear existing scans. So "no more scanned than required" is not an
  invariant of the store: `PackingProperties.LoadingInvoiceCanExceedTarget` exhibits a session that
  breaks it. It holds for every run that does not load an invoice
  (`PackingProperties.RunWithoutLoadKeepsWithinTarget`).
- The AI (17) form picks the leftmost `17` + six digits + `21` after the GTIN. If the text between
  the GTIN and the real date already contains such a pattern, that earlier match wins and the
  serial comes out wrong (`BarcodeProperties.Ai17MatchInsideLotWins`, `BarcodeProperties.Ai17LotHidesSerial`).
  `BarcodeProperties.Ai17RoundTrip` carries the absence of such a match as an explicit precondition.
- The parenthesised form does not cut its serial at GS (`BarcodeProperties.ParensSerialKeepsGS`).
  The concatenated forms may return an empty serial (`BarcodeProperties.ConcatenatedSerialMayBeEmpty`).
- Nothing in `src/stores/packing.ts` keeps two actions from overlapping: `loading` is written but never
  read, and `scanProduct`'s guards run before its `await`. Two overlapping `scanProduct` calls with the
  same serial can both pass the duplicate check and both append. Every invariant below that spans
  several actions assumes the actions do not overlap (see "## Left out").

## Model

| member | source | states |
|---|---|---|
| `Barcode.ParseAIDataMatrix` | src/utils/barcode.ts:6-67 | a pair is returned exactly when, after the GS strip, the parenthesised pattern matches somewhere, or the text starts with "01", is longer than 18, and has "21" right after the GTIN or a 17/21 match after it; every returned GTIN has 14 characters |
| `Barcode.StripLeadingGS` | src/utils/barcode.ts:9-11 | one leading GS is dropped and the rest kept; a text without a leading GS is kept whole |
| `Barcode.ParensMatchAt` | src/utils/barcode.ts:17 | (definition) the pattern `\(01\)(\d{14})\(21\)([^()]+)` matches at index i |
| `Barcode.Ai17To21At` | src/utils/barcode.ts:48 | (definition) the pattern `17(\d{6})21(.+)$` matches at index j |
| `Barcode.FindParens` | src/utils/barcode.ts:17-18 | the regex match is the leftmost index where `(01)` + 14 ASCII digits + `(21)` + a non-parenthesis starts; none is found only when no index matches |
| `Barcode.ParenFreeRunEnd` | src/utils/barcode.ts:17 | the greedy `[^()]+` stops at the first '(' or ')' or at the end, and no character it covers is a parenthesis |
| `Barcode.FindAi17To21` | src/utils/barcode.ts:48 | the match is the leftmost `17` + 6 digits + `21` whose tail is non-empty, runs to the end and has no line terminator; none is found only when no index matches |
| `Barcode.CutAtGS` | src/utils/barcode.ts:35-38 | the serial is the prefix before the first GS: it contains no GS and is followed by a GS or the end |
| `BarcodeProperties.CutAtFirstGSUnique` | src/utils/barcode.ts:52-55 | the cut at the first GS is determined by its input |
| `BarcodeProperties.ParensFormWins` | src/utils/barcode.ts:17-24 | whenever the parenthesised pattern matches, its leftmost match decides the result, whatever else the text holds: GTIN = the 14 digits, serial = the maximal non-empty run without '(' or ')' |
| `BarcodeProperties.ParensRoundTrip` | src/utils/barcode.ts:17-24 | `(01)`+P+`(21)`+S decodes to (P, S) for every 14-digit P and non-empty S without parentheses |
| `BarcodeProperties.ParensSerialKeepsGS` | src/utils/barcode.ts:17 | a GS inside a parenthesised-form serial is kept in the serial |
| `BarcodeProperties.ConcatenatedAi21Form` | src/utils/barcode.ts:28-43 | with no parenthesised match, "01", length > 18 and "21" at 16..18, the result is (t[2..16], t[18..] cut at its first GS); case 2.1 wins over any 17/21 match |
| `BarcodeProperties.Ai17Form` | src/utils/barcode.ts:45-59 | with no parenthesised match and no "21" at 16..18, the serial is the tail after the leftmost 17/21 match, cut at its first GS, and the GTIN is t[2..16] |
| `BarcodeProperties.ConcatenatedRoundTrip` | src/utils/barcode.ts:28-43 | `01`+P+`21`+S decodes to (P, S) for any 14-character P and non-empty S, neither containing a parenthesis, S without GS; P need not be digits |
| `BarcodeProperties.Ai17RoundTrip` | src/utils/barcode.ts:45-59 | `01`+P+L+`17`+D+`21`+S decodes to (P, S) when D is six digits, P, L and S have no parenthesis, S is non-empty with no GS or line terminator, and L neither starts the rest with "21" nor holds an earlier 17/21 match |
| `BarcodeProperties.LeadingGSIgnored` | src/utils/barcode.ts:9-11 | a single GS in front of a text that does not itself start with GS changes nothing |
| `BarcodeProperties.NoGtinPrefixNoResult` | src/utils/barcode.ts:28-66 | with no parenthesised match, a text not starting with "01" or of length at most 18 is not decodable |
| `BarcodeProperties.ConcatenatedSerialMayBeEmpty` | src/utils/barcode.ts:33-43 | every concatenated barcode with no parenthesised match and a GS right after `01` + 14 characters + `21` decodes to that GTIN and an empty serial |
| `BarcodeProperties.Ai17MatchInsideLotWins` | src/utils/barcode.ts:45-59 | when an AI (10) lot is itself "17" + six digits + "21" + X, the serial is X up to the GS closing the lot, whatever AI (17) and AI (21) follow |
| `BarcodeProperties.Ai17LotHidesSerial` | src/utils/barcode.ts:48 | a concrete barcode with real serial `SERIAL` whose lot `1712345621X` makes the decoder return serial `X` |
| `BarcodeProperties.ParensExample` | src/utils/__tests__/barcode.spec.ts:5-12 | the `(01)08850000000000(21)SN123456` test vector |
| `BarcodeProperties.ConcatenatedExample` | src/utils/__tests__/barcode.spec.ts:14-21 | the `010885000000000021SN123456` test vector |
| `BarcodeProperties.Ai17Example` | src/utils/__tests__/barcode.spec.ts:23-30 | the AI 10 + AI 17 test vector, serial `TK1234000093` |
| `BarcodeProperties.Ai17WithSeparatorsExample` | src/utils/__tests__/barcode.spec.ts:38-46 | the same vector with a leading GS and a GS after the lot |
| `BarcodeProperties.InvalidExample` | src/utils/__tests__/barcode.spec.ts:32-36 | `123456789` is not decodable |
| `JsBuiltins.IndexOf` | src/stores/packing.ts:110 | -1 exactly when the element is absent, otherwise an index holding it with no earlier occurrence |
| `JsBuiltins.RemoveAt` | src/stores/packing.ts:112-113 | `splice(i, 1)` drops exactly the element at i and keeps the others in order; an index past the end removes nothing |
| `JsBuiltins.ParseInt` | src/stores/packing.ts:63 | a negative result needs a '-' in the text; text that starts with a digit always reads as a non-negative number |
| `JsBuiltins.ParseIntIsNaNExactly` | src/stores/packing.ts:63 | `parseInt` is NaN exactly when no digit follows the leading white space and at most one sign |
| `JsBuiltins.ParseIntOrZero` | src/stores/packing.ts:63 | NaN becomes 0, and any other non-zero result is the number `parseInt` read |
| `JsBuiltins.TrimStart` | src/stores/packing.ts:63 | the leading white space `parseInt` trims: exactly the maximal run of white space and line terminators in front |
| `JsBuiltins.ParseIntSkipsWhiteSpace` | src/stores/packing.ts:63 | any run of white space put in front of text that does not itself start with white space leaves what `parseInt` reads unchanged |
| `JsBuiltins.WhiteSpaceQuantityExample` | src/stores/packing.ts:63 | a quantity preceded by every white-space character `parseInt` skips, the byte order mark and the no-break space included, loads as 3 |
| `JsBuiltins.LeadingDigits` | src/stores/packing.ts:63 | `parseInt` reads the longest run of decimal digits |
| `JsBuiltins.DigitsValueOfDecimal` | src/stores/packing.ts:63 | the digits of the decimal numeral of n read back as n |
| `JsBuiltins.ParseIntOrZeroReadsNumeral` | src/stores/packing.ts:63 | `parseInt(qty, 10) \|\| 0` reads a numeral with a leading '+', a leading '-' or no sign as its value, whatever non-digit text follows it |
| `JsBuiltins.ParseIntOrZeroOfDecimal` | src/stores/packing.ts:63 | every integer survives a trip through its decimal numeral |
| `Packing.CaughtMessage` | src/stores/packing.ts:101-103 | the error is the first non-empty of the response message, the exception message and the fallback, and is never empty |
| `Packing.SumQuantities` | src/stores/packing.ts:19 | with non-negative quantities the sum is non-negative and at least every single quantity |
| `Packing.TotalTarget` | src/stores/packing.ts:18-20 | 0 without an invoice; non-negative when every quantity is |
| `Packing.TotalScanned` | src/stores/packing.ts:22 | 0 exactly when nothing is scanned |
| `PackingProperties.CompleteMeansTargetMet` | src/stores/packing.ts:24-26 | `isComplete` holds exactly when an invoice is loaded and the non-zero number of scans equals its summed quantity; a complete session is within target |
| `Packing.ValidateEmployee` | src/stores/packing.ts:29-47 | it posts the code; it succeeds exactly on `success` with an employee, which then replaces the old one with the error cleared; any failure keeps the old employee and sets a non-empty error: "Employee not found" for an unusable answer, and for a rejected request the response message, else the exception message, else "Error validating employee" |
| `Packing.ToProductItems` | src/stores/packing.ts:60-64 | one item per response row, in row order, with quantity `parseInt(qty, 10) \|\| 0` |
| `Packing.CustomerName` | src/stores/packing.ts:59 | the customer's `name_1` when present and non-empty, "Unknown Customer" otherwise; never empty |
| `Packing.GetInvoiceDetails` | src/stores/packing.ts:49-76 | it succeeds exactly on a response with a non-empty `doc_no`, which then replaces the invoice with the error cleared; otherwise only the error changes: "Invoice not found" for an answer without `doc_no`, and for a rejected request the response message, else the exception message, else "Error fetching invoice"; the scans are never touched |
| `Packing.ScanProduct` | src/stores/packing.ts:78-107 | a lookup is posted exactly when the serial is new and fewer than `totalTarget` are scanned; success exactly on a lookup with a product record, which appends serial and record; every other path leaves both lists as they were and sets a non-empty error; only lists and error change |
| `Packing.RemoveSerial` | src/stores/packing.ts:109-115 | an absent serial changes nothing; otherwise each list loses one entry, alignment is kept, and only the two lists change |
| `Packing.ConfirmPacking` | src/stores/packing.ts:117-144 | a request is posted exactly when invoice and employee are present, carrying the receipt number, the employee code and the scanned serials; success sets only the success message; failure changes only the error: "Missing invoice or employee information" when nothing was posted, "Confirmation failed" for `success` false, and for a rejected request the response message, else the exception message, else "Error confirming packing" |
| `Packing.Reset` | src/stores/packing.ts:160-168 | afterwards nothing is scanned, the target is 0, the session is not complete, and there is no employee or invoice |
| `Packing.ResetScanning` | src/stores/packing.ts:170-175 | only the lists and messages are cleared; step, employee, invoice and target stay |
| `Packing.ChangeInvoice` | src/stores/packing.ts:177-185 | the employee is kept; afterwards nothing is scanned, the target is 0, the step is 1 and there are no messages |
| `PackingProperties.InitialIsConsistent` | src/stores/packing.ts:8-26 | the store as created has aligned, duplicate-free lists, is within target and is not complete |
| `PackingProperties.ScanRejectsDuplicate` | src/stores/packing.ts:79-82 | an exact duplicate is refused before any lookup with "Serial s already scanned." and nothing else changes |
| `PackingProperties.ScanRespectsTarget` | src/stores/packing.ts:84-87 | at or above the target a new serial is refused before any lookup with "All items have been scanned."; a scan succeeds only below the target |
| `PackingProperties.ScanKeepsWithinTarget` | src/stores/packing.ts:84-97 | a scan never takes the count past the target |
| `PackingProperties.CompleteRefusesScans` | src/stores/packing.ts:24-26 | once `isComplete`, every new serial is refused and the count stays |
| `PackingProperties.GuardedScanIgnoresLookup` | src/stores/packing.ts:78-92 | when a guard refuses the scan, the lookup's answer cannot influence the result |
| `PackingProperties.ScanFailureMessage` | src/stores/packing.ts:98-103 | a failed lookup reports the response message, else the exception message, else "Error scanning product"; an answer without a product reports its message, else "Invalid Serial" |
| `PackingProperties.ScanAppendsAtSameIndex` | src/stores/packing.ts:94-97 | a successful scan puts the serial and its record at the same new last index and keeps all earlier entries |
| `PackingProperties.ScanKeepsConsistent` | src/stores/packing.ts:78-107 | scanning keeps the lists aligned and free of duplicate serials |
| `PackingProperties.RemoveSerialHitsFirstIndex` | src/stores/packing.ts:109-115 | removal deletes the first index of the serial from both lists and keeps every other entry and its partner aligned |
| `PackingProperties.RemoveSerialForgetsIt` | src/stores/packing.ts:109-115 | in a duplicate-free session the removed serial is no longer scanned |
| `PackingProperties.RemoveSerialKeepsConsistent` | src/stores/packing.ts:109-115 | removal keeps the lists aligned and free of duplicate serials |
| `PackingProperties.RemoveUndoesScan` | src/stores/packing.ts:94-115 | scanning a new serial and then removing it restores both lists exactly |
| `PackingProperties.FailedConfirmKeepsSession` | src/stores/packing.ts:132-141 | a failed confirmation changes nothing but the error, so it can be retried |
| `PackingProperties.SumOfToProductItems` | src/stores/packing.ts:18-20 | the target of the mapped items is the sum of the rows' parsed quantities |
| `PackingProperties.LoadedInvoiceTarget` | src/stores/packing.ts:55-66 | after a successful load the target is the rows' parsed quantities summed, and the scans are the old ones |
| `PackingProperties.DecimalQuantityExample` | src/stores/packing.ts:63 | the quantity "3.00" loads as 3 |
| `PackingProperties.NonNumericQuantityExample` | src/stores/packing.ts:63 | the quantity "-" (a sign with no digit) loads as 0 |
| `PackingProperties.LoadingInvoiceCanExceedTarget` | src/stores/packing.ts:55-66 | one serial scanned against a one-unit invoice exceeds the target once a zero-unit invoice is loaded, because scans are not cleared |
| `PackingProperties.EmployeeValidationExamples` | src/stores/__tests__/packing.spec.ts:28-57 | the employee validation success and failure scenarios |
| `PackingProperties.ConfirmExample` | src/stores/packing.ts:124-134 | the INV-001 confirmation posts the two raw serials and reports success |
| `PackingProperties.ResetIsInitial` | src/stores/packing.ts:160-168 | the field assignments of `reset` yield, from any session, exactly the store as created at packing.ts:8-15; so resetting twice equals resetting once |
| `PackingProperties.ChangeInvoiceIsResetKeepingEmployee` | src/stores/packing.ts:177-185 | the field assignments of `changeInvoice` equal those of `reset` with the employee put back, and so the created store plus the old employee |
| `PackingProperties.ResetScanningIsAbsorbed` | src/stores/packing.ts:160-185 | clearing the scans first changes nothing about a later `reset` or `changeInvoice`; `resetScanning` is idempotent and does nothing after `reset` |
| `PackingProperties.ApplyKeepsConsistent` | src/stores/packing.ts:29-185 | every action keeps the lists aligned and free of duplicate serials |
| `PackingProperties.ApplyKeepsWithinTarget` | src/stores/packing.ts:78-185 | every action other than `getInvoiceDetails` keeps the count within the target |
| `PackingProperties.RunKeepsConsistent` | src/stores/packing.ts:6-209 | every sequence of actions from a consistent session, the initial one included, stays consistent |
| `PackingProperties.RunWithoutLoadKeepsWithinTarget` | src/stores/packing.ts:6-209 | every sequence of actions without an invoice load keeps the count within the target |

## Left out

- The `loading` flag and the `await` boundaries: each action is one atomic step. Nothing in the store prevents two actions from overlapping, and overlapping `scanProduct` calls with one serial can append it twice. PackingProperties.NoDuplicateSerials, PackingProperties.ApplyKeepsConsistent, PackingProperties.RunKeepsConsistent and PackingProperties.RunWithoutLoadKeepsWithinTarget hold only for runs whose actions do not overlap.
- PackingProperties.ApplyKeepsConsistent: assumes the action runs to completion before the next one starts.
- PackingProperties.RunKeepsConsistent: assumes the actions of the run do not overlap. Two overlapping scans of one serial break `NoDuplicateSerials`.
- PackingProperties.RunWithoutLoadKeepsWithinTarget: assumes the actions of the run do not overlap. Two overlapping scans that both pass the target guard can exceed the target.
- PackingProperties.RunKeepsConsistent: covers only runs made of actions. The store returns its state refs (src/stores/packing.ts:187-195), and a caller that writes `scannedSerials`, `employee` or another ref directly, as the store's own tests do, bypasses every action and every invariant.
- `getPackingPrintData`: a GET to `/invoice/packing/<invoiceNo>` that returns the body as it is, clearing `error` first and setting it from the caught exception on failure. It returns raw print data and has nothing to prove beyond the error handling already modelled for the other actions.
- `src/stores/auth.ts`, `src/api/axios.ts`, `src/router/index.ts`, `src/main.ts` and the build configuration: browser storage, HTTP transport, routing and bootstrap.
- The request argument of `validateEmployee` and `getInvoiceDetails` only forms the request body. The model records it in `Step.sent` and does nothing else with it.
- `currentStep`: the store only ever sets it to 1, in `reset` and `changeInvoice`. Nothing in `src/stores/packing.ts` advances it.
- Responses whose body is not an object (`response.data` undefined in `validateEmployee`, `scanProduct` or `confirmPacking`), and an invoice response without a `details` array. The store's actions in `src/stores/packing.ts` fail on these with a `TypeError` whose message the model does not reproduce.
- Fields that the TypeScript types declare but the store never sets or reads: `cust_code`, `trans_flag`, `doc_line_number`, `is_serial_number`, `roworder`, `line_number`, and the like.
- Packing.TotalTarget: quantities and their sum are unbounded integers. JavaScript numbers lose precision above 2^53, and `parseInt` rounds numerals longer than that.
- Strings are sequences of Unicode scalar values. JavaScript indexes UTF-16 code units, so lengths and offsets differ for characters outside the Basic Multilingual Plane.

=== FILE: barcode.dfy ===
/**
 * The GS1 element-string decoder of the packing client. It accepts three
 * encodings of a GTIN under Application Identifier (01) and a serial number
 * under AI (21), in this order of precedence:
 *   1. the human-readable form `(01)<14 digits>(21)<serial>`;
 *   2. the concatenated form `01<14 chars>21<serial>`;
 *   3. the concatenated form `01<14 chars>...17<6 digits>21<serial>`, where
 *      AI (17), the expiry date, is only skipped over.
 * ASCII 29 (GS) is the FNC1 field separator of section 7.8 of the GS1 General
 * Specifications: one leading GS is dropped, and the concatenated forms cut
 * the serial at the first GS.
 *
 * The two regular expressions of `parseAIDataMatrix` are written out as index
 * predicates (`ParensMatchAt`, `Ai17To21At`) and a leftmost search, which is how
 * an ECMAScript `match` without the `g` flag picks its match.
 */
module Barcode {
  import opened Optional
  import opened JsBuiltins

  /** What the decoder returns: the GTIN (`ic_code`) and the serial number. */
  datatype ParsedBarcode = ParsedBarcode(icCode: string, serialNumber: string)

  /** ASCII 29, the group separator. */
  const GS: char := '\U{1D}'

  predicate IsParen(c: char) {
    c == '(' || c == ')'
  }

  /** Drops one leading GS; a second GS right after it stays. */
  function StripLeadingGS(barcode: string): (t: string)
    ensures StartsWith(barcode, [GS]) ==> [GS] + t == barcode
    ensures !StartsWith(barcode, [GS]) ==> t == barcode
  {
    if StartsWith(barcode, [GS]) then barcode[1..] else barcode
  }

  // ---------------------------------------------------------------------------
  // Pattern 1: /\(01\)(\d{14})\(21\)([^()]+)/
  // ---------------------------------------------------------------------------

  /**
   * The parenthesised pattern matches starting at index `i` of `t`: "(01)",
   * fourteen ASCII digits, "(21)", and at least one character that is neither
   * '(' nor ')'.
   */
  predicate ParensMatchAt(t: string, i: int) {
    && 0 <= i && i + 23 <= |t|
    && t[i..i + 4] == "(01)"
    && AllDigits(t[i + 4..i + 18])
    && t[i + 18..i + 22] == "(21)"
    && !IsParen(t[i + 22])
  }

  /** The leftmost index at or after `from` where the parenthesised pattern matches. */
  function FindParens(t: string, from: nat): (r: Option<nat>)
    requires from <= |t|
    ensures r.Some? ==> from <= r.value < |t| && ParensMatchAt(t, r.value)
    ensures r.Some? ==> forall k :: from <= k < r.value ==> !ParensMatchAt(t, k)
    ensures r.None? ==> forall k :: from <= k ==> !ParensMatchAt(t, k)
    decreases |t| - from
  {
    if from == |t| then None
    else if ParensMatchAt(t, from) then Some(from)
    else FindParens(t, from + 1)
  }

  /** Where the greedy `[^()]+` that starts at `from` stops: the first '(' or ')' or the end. */
  function ParenFreeRunEnd(t: string, from: nat): (e: nat)
    requires from <= |t|
    ensures from <= e <= |t|
    ensures forall k :: from <= k < e ==> !IsParen(t[k])
    ensures e == |t| || IsParen(t[e])
    decreases |t| - from
  {
    if from == |t| || IsParen(t[from]) then from else ParenFreeRunEnd(t, from + 1)
  }

  // ---------------------------------------------------------------------------
  // Case 2.2: /17(\d{6})21(.+)$/ on the text after the GTIN
  // ---------------------------------------------------------------------------

  /**
   * The AI (17) pattern matches starting at index `j` of `rest`: "17", six
   * ASCII digits, "21", then a non-empty tail that runs to the end of `rest`
   * without a line terminator (the `(.+)$`).
   */
  predicate Ai17To21At(rest: string, j: int) {
    && 0 <= j && j + 11 <= |rest|
    && rest[j..j + 2] == "17"
    && AllDigits(rest[j + 2..j + 8])
    && rest[j + 8..j + 10] == "21"
    && forall k :: j + 10 <= k < |rest| ==> !IsLineTerminator(rest[k])
  }

  /** The leftmost index at or after `from` where the AI (17) pattern matches. */
  function FindAi17To21(rest: string, from: nat): (r: Option<nat>)
    requires from <= |rest|
    ensures r.Some? ==> from <= r.value < |rest| && Ai17To21At(rest, r.value)
    ensures r.Some? ==> forall k :: from <= k < r.value ==> !Ai17To21At(rest, k)
    ensures r.None? ==> forall k :: from <= k ==> !Ai17To21At(rest, k)
    decreases |rest| - from
  {
    if from == |rest| then None
    else if Ai17To21At(rest, from) then Some(from)
    else FindAi17To21(rest, from + 1)
  }

  // ---------------------------------------------------------------------------
  // Serial truncation at the first GS
  // ---------------------------------------------------------------------------

  /** `sn` is what is left of `s` when it is cut just before its first GS. */
  predicate IsCutAtFirstGS(s: string, sn: string) {
    && sn <= s
    && GS !in sn
    && (|sn| == |s| || s[|sn|] == GS)
  }

  /** `indexOf(GS)` followed by `substring(0, gsIndex)` when a GS was found. */
  function CutAtGS(s: string): (sn: string)
    ensures IsCutAtFirstGS(s, sn)
  {
    var gsIndex := IndexOf(s, GS);
    if gsIndex != -1 then s[..gsIndex] else s
  }

  /** The GTIN form: "01" first and more than 18 characters after the leading-GS strip. */
  predicate HasGtinPrefix(t: string) {
    StartsWith(t, "01") && |t| > 18
  }

  // ---------------------------------------------------------------------------
  // The decoder
  // ---------------------------------------------------------------------------

  /**
   * `parseAIDataMatrix`. Its guard `matchParens[1] && matchParens[2]` is
   * always true once the pattern matched (14 digits and a non-empty
   * run), and so is `match17_21[2]`; neither appears here.
   */
  function ParseAIDataMatrix(barcode: string): (r: Option<ParsedBarcode>)
    ensures var t := StripLeadingGS(barcode);
      r.Some? <==>
        || (exists i :: ParensMatchAt(t, i))
        || (HasGtinPrefix(t) && (t[16..18] == "21" || exists j :: Ai17To21At(t[16..], j)))
    ensures r.Some? ==> |r.value.icCode| == 14
  {
    var t := StripLeadingGS(barcode);
    match FindParens(t, 0)
    case Some(i) =>
      Some(ParsedBarcode(t[i + 4..i + 18], t[i + 22..ParenFreeRunEnd(t, i + 22)]))
    case None =>
      if HasGtinPrefix(t) then
        var gtin := t[2..16];
        var rest := t[16..];
        if StartsWith(rest, "21") then
          Some(ParsedBarcode(gtin, CutAtGS(rest[2..])))
        else
          match FindAi17To21(rest, 0)
          case Some(j) => Some(ParsedBarcode(gtin, CutAtGS(rest[j + 10..])))
          case None => None
      else None
  }
}

=== FILE: barcode_properties.dfy ===
/**
 * What `parseAIDataMatrix` promises, one lemma per encoding and per edge the
 * decoder's comments and test vectors talk about.
 */
module BarcodeProperties {
  import opened Optional
  import opened JsBuiltins
  import opened Barcode

  predicate ParenFree(s: string) {
    forall k :: 0 <= k < |s| ==> !IsParen(s[k])
  }

  /** `sn` is the whole greedy `[^()]+` run that starts at index `from` of `t`. */
  predicate IsMaximalParenFreeRun(t: string, from: int, sn: string) {
    && 0 <= from && from + |sn| <= |t|
    && |sn| > 0
    && sn == t[from..from + |sn|]
    && ParenFree(sn)
    && (from + |sn| == |t| || IsParen(t[from + |sn|]))
  }

  /** The cut at the first GS is a function of its input: no two different serials satisfy it. */
  lemma CutAtFirstGSUnique(s: string, a: string, b: string)
    requires IsCutAtFirstGS(s, a) && IsCutAtFirstGS(s, b)
    ensures a == b
  {
  }

  /**
   * Pattern 1 takes precedence: whenever the parenthesised pattern matches
   * anywhere, the leftmost match decides the result, whatever else the text
   * holds. Its GTIN is the 14 digits and its serial the maximal run of
   * characters other than '(' and ')', which is never empty.
   */
  lemma ParensFormWins(barcode: string, i: int)
    requires ParensMatchAt(StripLeadingGS(barcode), i)
    requires forall k :: 0 <= k < i ==> !ParensMatchAt(StripLeadingGS(barcode), k)
    ensures var t := StripLeadingGS(barcode);
      var r := ParseAIDataMatrix(barcode);
      && r.Some?
      && r.value.icCode == t[i + 4..i + 18]
      && AllDigits(r.value.icCode)
      && IsMaximalParenFreeRun(t, i + 22, r.value.serialNumber)
  {
    var t := StripLeadingGS(barcode);
    var found := FindParens(t, 0);
    assert found == Some(i);
    var e := ParenFreeRunEnd(t, i + 22);
    assert e > i + 22 by {
      assert !IsParen(t[i + 22]);
    }
    var sn := t[i + 22..e];
    assert ParenFree(sn) by {
      forall k | 0 <= k < |sn|
        ensures !IsParen(sn[k])
      {
        assert sn[k] == t[i + 22 + k];
      }
    }
  }

  /** (01)GTIN(21)SN round trip: a 14-digit GTIN and a serial without parentheses come back unchanged. */
  lemma ParensRoundTrip(gtin: string, serial: string)
    requires |gtin| == 14 && AllDigits(gtin)
    requires |serial| > 0 && ParenFree(serial)
    ensures ParseAIDataMatrix("(01)" + gtin + "(21)" + serial) == Some(ParsedBarcode(gtin, serial))
  {
    var barcode := "(01)" + gtin + "(21)" + serial;
    assert StripLeadingGS(barcode) == barcode by {
      assert barcode[0] == '(';
    }
    assert barcode[0..4] == "(01)";
    assert barcode[4..18] == gtin;
    assert barcode[18..22] == "(21)";
    assert barcode[22] == serial[0];
    assert barcode[22..] == serial;
    ParensFormWins(barcode, 0);
    var sn := ParseAIDataMatrix(barcode).value.serialNumber;
    assert sn == serial;
  }

  /**
   * Case 2.1: with no parenthesised match, a text that starts with "01", is
   * longer than 18 characters and has AI (21) right after the 14-character
   * GTIN yields that GTIN and everything after the "21" up to the first GS. An
   * AI (17) further on does not matter: case 2.1 is tried first.
   */
  lemma ConcatenatedAi21Form(barcode: string)
    requires var t := StripLeadingGS(barcode);
      (forall i :: !ParensMatchAt(t, i)) && HasGtinPrefix(t) && t[16..18] == "21"
    ensures var t := StripLeadingGS(barcode);
      var r := ParseAIDataMatrix(barcode);
      && r.Some?
      && r.value.icCode == t[2..16]
      && IsCutAtFirstGS(t[18..], r.value.serialNumber)
  {
    var t := StripLeadingGS(barcode);
    assert FindParens(t, 0).None?;
    assert StartsWith(t[16..], "21");
    assert t[16..][2..] == t[18..];
  }

  /**
   * Case 2.2: with no parenthesised match and no "21" right after the GTIN,
   * the serial is the tail after the leftmost "17" + 6 digits + "21" in the text
   * after the GTIN whose tail is non-empty and free of line terminators, cut
   * at its first GS.
   */
  lemma Ai17Form(barcode: string, j: int)
    requires var t := StripLeadingGS(barcode);
      && (forall i :: !ParensMatchAt(t, i))
      && HasGtinPrefix(t) && t[16..18] != "21"
      && Ai17To21At(t[16..], j)
      && (forall k :: 0 <= k < j ==> !Ai17To21At(t[16..], k))
    ensures var t := StripLeadingGS(barcode);
      var r := ParseAIDataMatrix(barcode);
      && r.Some?
      && r.value.icCode == t[2..16]
      && IsCutAtFirstGS(t[16 + j + 10..], r.value.serialNumber)
  {
    var t := StripLeadingGS(barcode);
    var rest := t[16..];
    assert FindParens(t, 0).None?;
    assert !StartsWith(rest, "21") by {
      assert rest[..2] == t[16..18];
    }
    var found := FindAi17To21(rest, 0);
    assert found == Some(j);
    assert rest[j + 10..] == t[16 + j + 10..];
  }

  /** Text with no '(' cannot match the parenthesised pattern. */
  lemma NoParensMatchWithoutOpenParen(t: string)
    requires '(' !in t
    ensures forall i :: !ParensMatchAt(t, i)
  {
    forall i | 0 <= i < |t|
      ensures !ParensMatchAt(t, i)
    {
      assert t[i] != '(';
    }
  }

  /** 01GTIN21SN round trip: a GTIN and a serial without parentheses or GS come back unchanged. */
  lemma ConcatenatedRoundTrip(gtin: string, serial: string)
    requires |gtin| == 14 && ParenFree(gtin)
    requires |serial| > 0 && ParenFree(serial) && GS !in serial
    ensures ParseAIDataMatrix("01" + gtin + "21" + serial) == Some(ParsedBarcode(gtin, serial))
  {
    var t := "01" + gtin + "21" + serial;
    assert StripLeadingGS(t) == t by {
      assert t[0] == '0';
    }
    assert '(' !in t by {
      forall k | 0 <= k < |t|
        ensures t[k] != '('
      {
        if 2 <= k < 16 {
          assert t[k] == gtin[k - 2];
        } else if 18 <= k {
          assert t[k] == serial[k - 18];
        }
      }
    }
    NoParensMatchWithoutOpenParen(t);
    assert t[..2] == "01";
    assert t[2..16] == gtin;
    assert t[16..18] == "21";
    assert t[18..] == serial;
    ConcatenatedAi21Form(t);
    var sn := ParseAIDataMatrix(t).value.serialNumber;
    assert IsCutAtFirstGS(serial, serial);
    CutAtFirstGSUnique(serial, sn, serial);
  }

  /**
   * The 01 ... 17 YYMMDD 21 SN round trip: the serial after an expiry date comes
   * back unchanged, provided nothing between the GTIN and that "17" already
   * matches the AI (17) pattern (a lot number such as "1712345621..." would).
   */
  lemma Ai17RoundTrip(gtin: string, between: string, date: string, serial: string)
    requires |gtin| == 14 && ParenFree(gtin) && ParenFree(between)
    requires |date| == 6 && AllDigits(date)
    requires |serial| > 0 && ParenFree(serial) && GS !in serial
    requires forall k :: 0 <= k < |serial| ==> !IsLineTerminator(serial[k])
    requires !StartsWith(between + "17", "21")
    requires forall k :: 0 <= k < |between| ==> !Ai17To21At(between + "17" + date + "21" + serial, k)
    ensures ParseAIDataMatrix("01" + gtin + between + "17" + date + "21" + serial)
         == Some(ParsedBarcode(gtin, serial))
  {
    var rest := between + "17" + date + "21" + serial;
    var t := "01" + gtin + rest;
    assert t == "01" + gtin + between + "17" + date + "21" + serial;
    assert StripLeadingGS(t) == t by {
      assert t[0] == '0';
    }
    assert '(' !in t by {
      forall k | 0 <= k < |t|
        ensures t[k] != '('
      {
        if 2 <= k < 16 {
          assert t[k] == gtin[k - 2];
        } else if 16 <= k < 16 + |between| {
          assert t[k] == between[k - 16];
        } else if 16 + |between| + 10 <= k {
          assert t[k] == serial[k - 16 - |between| - 10];
        }
      }
    }
    NoParensMatchWithoutOpenParen(t);
    assert t[16..] == rest;
    assert t[16..18] != "21" by {
      assert t[16..18] == rest[..2] == (between + "17")[..2];
    }
    var j := |between|;
    assert Ai17To21At(rest, j) by {
      assert rest[j..j + 2] == "17";
      assert rest[j + 2..j + 8] == date;
      assert rest[j + 8..j + 10] == "21";
      assert rest[j + 10..] == serial;
      forall k | j + 10 <= k < |rest|
        ensures !IsLineTerminator(rest[k])
      {
        assert rest[k] == serial[k - j - 10];
      }
    }
    Ai17Form(t, j);
    assert t[16 + j + 10..] == serial;
    var sn := ParseAIDataMatrix(t).value.serialNumber;
    assert IsCutAtFirstGS(serial, serial);
    CutAtFirstGSUnique(serial, sn, serial);
  }

  /** Exactly one leading GS is ignored: a scanner that prepends it changes nothing. */
  lemma LeadingGSIgnored(x: string)
    requires !StartsWith(x, [GS])
    ensures ParseAIDataMatrix([GS] + x) == ParseAIDataMatrix(x)
  {
    assert ([GS] + x)[1..] == x;
  }

  /**
   * With no parenthesised match, a text that does not start with "01" or has
   * at most 18 characters is not decodable.
   */
  lemma NoGtinPrefixNoResult(barcode: string)
    requires var t := StripLeadingGS(barcode);
      (forall i :: !ParensMatchAt(t, i)) && (!StartsWith(t, "01") || |t| <= 18)
    ensures ParseAIDataMatrix(barcode).None?
  {
  }

  /**
   * In the concatenated form, a GS right after AI (21) yields an empty serial:
   * the cut at the first GS keeps nothing.
   */
  lemma ConcatenatedSerialMayBeEmpty(barcode: string)
    requires var t := StripLeadingGS(barcode);
      && (forall i :: !ParensMatchAt(t, i)) && HasGtinPrefix(t)
      && t[16..18] == "21" && t[18] == GS
    ensures var t := StripLeadingGS(barcode);
      ParseAIDataMatrix(barcode) == Some(ParsedBarcode(t[2..16], ""))
  {
    var t := StripLeadingGS(barcode);
    ConcatenatedAi21Form(barcode);
    assert IsCutAtFirstGS(t[18..], "");
    CutAtFirstGSUnique(t[18..], "", ParseAIDataMatrix(barcode).value.serialNumber);
  }

  lemma ParenFreeConcat(a: string, b: string)
    requires ParenFree(a) && ParenFree(b)
    ensures ParenFree(a + b)
  {
    forall k | 0 <= k < |a + b|
      ensures !IsParen((a + b)[k])
    {
      if k >= |a| {
        assert (a + b)[k] == b[k - |a|];
      }
    }
  }

  /** The parenthesised form does not cut at GS: a GS inside the serial stays in it. */
  lemma ParensSerialKeepsGS(gtin: string, before: string, after: string)
    requires |gtin| == 14 && AllDigits(gtin)
    requires ParenFree(before) && ParenFree(after)
    ensures ParseAIDataMatrix("(01)" + gtin + "(21)" + before + [GS] + after)
         == Some(ParsedBarcode(gtin, before + [GS] + after))
  {
    var serial := before + [GS] + after;
    assert ParenFree([GS]);
    ParenFreeConcat(before, [GS]);
    ParenFreeConcat(before + [GS], after);
    assert "(01)" + gtin + "(21)" + before + [GS] + after == "(01)" + gtin + "(21)" + serial;
    ParensRoundTrip(gtin, serial);
  }

  // ---------------------------------------------------------------------------
  // The decoder's test vectors
  // ---------------------------------------------------------------------------

  /** The AI (17) pattern cannot start where the next character is not '7'. */
  lemma NoAi17WithoutSeven(rest: string, k: int)
    requires 0 <= k && k + 1 < |rest| && rest[k + 1] != '7'
    ensures !Ai17To21At(rest, k)
  {
    if k + 11 <= |rest| {
      assert rest[k..k + 2][1] == rest[k + 1];
    }
  }

  /** `(01)08850000000000(21)SN123456` decodes to GTIN 08850000000000 and serial SN123456. */
  lemma ParensExample()
    ensures ParseAIDataMatrix("(01)08850000000000(21)SN123456") == Some(ParsedBarcode("08850000000000", "SN123456"))
  {
    var barcode := "(01)08850000000000(21)SN123456";
    var gtin := "08850000000000";
    var serial := "SN123456";
    assert "(01)" + gtin + "(21)" + serial == barcode;
    assert AllDigits(gtin);
    assert ParenFree(serial);
    ParensRoundTrip(gtin, serial);
  }

  /** `010885000000000021SN123456` decodes to the same pair through case 2.1. */
  lemma ConcatenatedExample()
    ensures ParseAIDataMatrix("010885000000000021SN123456") == Some(ParsedBarcode("08850000000000", "SN123456"))
  {
    var barcode := "010885000000000021SN123456";
    var gtin := "08850000000000";
    var serial := "SN123456";
    assert "01" + gtin + "21" + serial == barcode;
    assert ParenFree(gtin) && ParenFree(serial) && GS !in serial;
    ConcatenatedRoundTrip(gtin, serial);
  }

  /** `01 08809999999997 10 TK1234 17 251111 21 TK1234000093`: a lot under AI (10) before the expiry date. */
  lemma Ai17Example()
    ensures var barcode := "01" + "08809999999997" + "10TK1234" + "17" + "251111" + "21" + "TK1234000093";
      ParseAIDataMatrix(barcode) == Some(ParsedBarcode("08809999999997", "TK1234000093"))
  {
    var barcode := "01" + "08809999999997" + "10TK1234" + "17" + "251111" + "21" + "TK1234000093";
    var gtin := "08809999999997";
    var between := "10TK1234";
    var date := "251111";
    var serial := "TK1234000093";
    var rest := between + "17" + date + "21" + serial;
    assert ParenFree(gtin) && ParenFree(between) && ParenFree(serial);
    assert AllDigits(date);
    assert forall k :: 0 <= k < |serial| ==> !IsLineTerminator(serial[k]);
    assert GS !in serial;
    assert (between + "17")[..2] == "10";
    forall k | 0 <= k < |between|
      ensures !Ai17To21At(rest, k)
    {
      NoAi17WithoutSeven(rest, k);
    }
    Ai17RoundTrip(gtin, between, date, serial);
  }

  /** The same barcode with a leading GS and a GS closing the lot decodes to the same pair. */
  lemma Ai17WithSeparatorsExample()
    ensures var barcode := [GS] + ("01" + "08809999999997" + ("10TK1234" + [GS]) + "17" + "251111" + "21" + "TK1234000093");
      ParseAIDataMatrix(barcode) == Some(ParsedBarcode("08809999999997", "TK1234000093"))
  {
    var barcode := [GS] + ("01" + "08809999999997" + ("10TK1234" + [GS]) + "17" + "251111" + "21" + "TK1234000093");
    var gtin := "08809999999997";
    var between := "10TK1234" + [GS];
    var date := "251111";
    var serial := "TK1234000093";
    var x := "01" + gtin + between + "17" + date + "21" + serial;
    var rest := between + "17" + date + "21" + serial;
    assert ParenFree(gtin) && ParenFree(between) && ParenFree(serial);
    assert AllDigits(date);
    assert forall k :: 0 <= k < |serial| ==> !IsLineTerminator(serial[k]);
    assert GS !in serial;
    assert (between + "17")[..2] == "10";
    forall k | 0 <= k < |between|
      ensures !Ai17To21At(rest, k)
    {
      NoAi17WithoutSeven(rest, k);
    }
    Ai17RoundTrip(gtin, between, date, serial);
    assert !StartsWith(x, [GS]) by {
      assert x[..1][0] == '0';
    }
    LeadingGSIgnored(x);
  }

  /** `123456789` has neither a parenthesised match nor the "01" prefix: not decodable. */
  lemma InvalidExample()
    ensures ParseAIDataMatrix("123456789").None?
  {
    var barcode := "123456789";
    assert barcode[0] == '1';
    NoParensMatchWithoutOpenParen(barcode);
    NoGtinPrefixNoResult(barcode);
  }

  /** The barcode of `Ai17MatchInsideLotWins` holds no opening parenthesis. */
  lemma LotBarcodeHasNoOpenParen(gtin: string, date: string, hidden: string, more: string)
    requires |gtin| == 14 && ParenFree(gtin)
    requires |date| == 6 && AllDigits(date)
    requires ParenFree(hidden) && ParenFree(more)
    ensures '(' !in "01" + gtin + "10" + "17" + date + "21" + hidden + [GS] + more
  {
    var t := "01" + gtin + "10" + "17" + date + "21" + hidden + [GS] + more;
    forall k | 0 <= k < |t|
      ensures t[k] != '('
    {
      if 2 <= k < 16 {
        assert t[k] == gtin[k - 2];
      } else if 20 <= k < 26 {
        assert t[k] == date[k - 20];
      } else if 28 <= k < 28 + |hidden| {
        assert t[k] == hidden[k - 28];
      } else if 28 + |hidden| + 1 <= k {
        assert t[k] == more[k - 28 - |hidden| - 1];
      }
    }
  }

  /** The lot of `Ai17MatchInsideLotWins` matches `17(\d{6})21(.+)$` at its index 2. */
  lemma LotMatchesAi17(date: string, hidden: string, more: string)
    requires |date| == 6 && AllDigits(date) && |hidden| > 0
    requires forall k :: 0 <= k < |hidden| ==> !IsLineTerminator(hidden[k])
    requires forall k :: 0 <= k < |more| ==> !IsLineTerminator(more[k])
    ensures Ai17To21At("10" + "17" + date + "21" + (hidden + [GS] + more), 2)
  {
    var tail := hidden + [GS] + more;
    var rest := "10" + "17" + date + "21" + tail;
    assert rest[2..4] == "17";
    assert rest[4..10] == date;
    assert rest[10..12] == "21";
    assert rest[12..] == tail;
    forall k | 12 <= k < |rest|
      ensures !IsLineTerminator(rest[k])
    {
      assert rest[k] == tail[k - 12];
      if k - 12 < |hidden| {
        assert tail[k - 12] == hidden[k - 12];
      } else if k - 12 > |hidden| {
        assert tail[k - 12] == more[k - 12 - |hidden| - 1];
      }
    }
  }

  /**
   * A lot under AI (10) that itself contains "17" + six digits + "21" hides the
   * real expiry date: the leftmost match wins, and the serial is read from
   * inside the lot, up to the GS that closes it. Whatever follows, the real
   * AI (17) and AI (21) included, is lost.
   */
  lemma Ai17MatchInsideLotWins(gtin: string, date: string, hidden: string, more: string)
    requires |gtin| == 14 && ParenFree(gtin)
    requires |date| == 6 && AllDigits(date)
    requires |hidden| > 0 && ParenFree(hidden) && GS !in hidden && ParenFree(more)
    requires forall k :: 0 <= k < |hidden| ==> !IsLineTerminator(hidden[k])
    requires forall k :: 0 <= k < |more| ==> !IsLineTerminator(more[k])
    ensures ParseAIDataMatrix("01" + gtin + "10" + "17" + date + "21" + hidden + [GS] + more)
         == Some(ParsedBarcode(gtin, hidden))
  {
    var tail := hidden + [GS] + more;
    var rest := "10" + "17" + date + "21" + tail;
    var t := "01" + gtin + rest;
    assert t == "01" + gtin + "10" + "17" + date + "21" + hidden + [GS] + more;
    assert StripLeadingGS(t) == t by {
      assert t[0] == '0';
    }
    LotBarcodeHasNoOpenParen(gtin, date, hidden, more);
    NoParensMatchWithoutOpenParen(t);
    assert t[16..] == rest;
    assert t[16..18] != "21" by {
      assert t[16..18] == rest[..2] == "10";
    }
    LotMatchesAi17(date, hidden, more);
    NoAi17WithoutSeven(rest, 0);
    NoAi17WithoutSeven(rest, 1);
    Ai17Form(t, 2);
    assert t[16 + 2 + 10..] == tail;
    var sn := ParseAIDataMatrix(t).value.serialNumber;
    assert IsCutAtFirstGS(tail, hidden) by {
      assert tail[|hidden|] == GS;
      assert hidden <= tail;
    }
    CutAtFirstGSUnique(tail, sn, hidden);
  }

  /**
   * The lot `1712345621X` makes the decoder return serial "X" instead of
   * "SERIAL", although the real AI (17) and AI (21) follow it.
   */
  lemma Ai17LotHidesSerial()
    ensures var barcode := "01" + "08809999999997" + "10" + "17" + "123456" + "21" + "X" + [GS] + ("17251111" + "21SERIAL");
      ParseAIDataMatrix(barcode) == Some(ParsedBarcode("08809999999997", "X"))
  {
    var more := "17251111" + "21SERIAL";
    assert ParenFree("08809999999997") && ParenFree("X") && ParenFree(more);
    assert AllDigits("123456");
    assert forall k :: 0 <= k < |more| ==> !IsLineTerminator(more[k]);
    Ai17MatchInsideLotWins("08809999999997", "123456", "X", more);
  }
}

=== FILE: js_builtins.dfy ===
/**
 * The JavaScript built-ins the packing core leans on, stated over Dafny
 * sequences: `String.prototype.startsWith`, `indexOf` on strings and arrays,
 * `Array.prototype.splice(i, 1)`, the `\d` character class, the line
 * terminators that `.` refuses to match, and `parseInt(s, 10)`.
 */
module JsBuiltins {
  import opened Optional

  /** `\d` in an ECMAScript regular expression: the ASCII digits only. */
  predicate IsDigit(c: char) {
    '0' <= c <= '9'
  }

  predicate AllDigits(s: string) {
    forall k :: 0 <= k < |s| ==> IsDigit(s[k])
  }

  /** LF, CR, LINE SEPARATOR and PARAGRAPH SEPARATOR: the characters `.` does not match. */
  predicate IsLineTerminator(c: char) {
    c == '\n' || c == '\r' || c == '\U{2028}' || c == '\U{2029}'
  }

  /** The white space `parseInt` skips: WhiteSpace (TAB, VT, FF, ZWNBSP and every Zs space) and LineTerminator. */
  predicate IsStrWhiteSpace(c: char) {
    || c == '\t' || c == '\U{000B}' || c == '\U{000C}' || c == '\U{FEFF}'
    || c == ' ' || c == '\U{00A0}' || c == '\U{1680}'
    || ('\U{2000}' <= c <= '\U{200A}')
    || c == '\U{202F}' || c == '\U{205F}' || c == '\U{3000}'
    || IsLineTerminator(c)
  }

  /** `s.startsWith(p)`. */
  predicate StartsWith(s: string, p: string) {
    |p| <= |s| && s[..|p|] == p
  }

  /** `indexOf`: the first position of `x` in `s`, or -1 when `x` does not occur. */
  function IndexOf<T(==)>(s: seq<T>, x: T): (i: int)
    ensures -1 <= i < |s|
    ensures i == -1 <==> x !in s
    ensures 0 <= i ==> s[i] == x && x !in s[..i]
  {
    if |s| == 0 then -1
    else if s[0] == x then 0
    else
      var j := IndexOf(s[1..], x);
      if j == -1 then -1
      else
        assert s[..j + 1] == [s[0]] + s[1..][..j];
        j + 1
  }

  /** `a.splice(i, 1)` seen through its effect on `a`: the element at `i` goes, a too-large `i` removes nothing. */
  function RemoveAt<T>(s: seq<T>, i: nat): (r: seq<T>)
    ensures i < |s| ==> |r| == |s| - 1
    ensures i < |s| ==> forall k :: 0 <= k < i ==> r[k] == s[k]
    ensures i < |s| ==> forall k :: i <= k < |r| ==> r[k] == s[k + 1]
    ensures |s| <= i ==> r == s
  {
    if i < |s| then s[..i] + s[i + 1..] else s
  }

  // ---------------------------------------------------------------------------
  // parseInt(s, 10)
  // ---------------------------------------------------------------------------

  /** The text left once the leading white space is trimmed (the first step of `parseInt`). */
  function TrimStart(s: string): (t: string)
    ensures |t| <= |s| && t == s[|s| - |t|..]
    ensures forall k :: 0 <= k < |s| - |t| ==> IsStrWhiteSpace(s[k])
    ensures |t| == 0 || !IsStrWhiteSpace(t[0])
  {
    if |s| > 0 && IsStrWhiteSpace(s[0]) then TrimStart(s[1..]) else s
  }

  /** The longest prefix of `s` made of decimal digits. */
  function LeadingDigits(s: string): (d: string)
    ensures d <= s
    ensures AllDigits(d)
    ensures |d| == |s| || !IsDigit(s[|d|])
  {
    if |s| > 0 && IsDigit(s[0]) then
      var rest := LeadingDigits(s[1..]);
      assert s == [s[0]] + s[1..];
      [s[0]] + rest
    else []
  }

  function DigitValue(c: char): nat
    requires IsDigit(c)
  {
    c as int - '0' as int
  }

  /** The number a string of decimal digits denotes, read most significant digit first. */
  function DigitsValue(d: string): nat
    requires AllDigits(d)
  {
    if |d| == 0 then 0 else DigitsValue(d[..|d| - 1]) * 10 + DigitValue(d[|d| - 1])
  }

  /**
   * `parseInt(s, 10)`: skip leading white space, read an optional sign, then the
   * longest run of decimal digits. `None` stands for NaN (no digit after the sign).
   */
  function ParseInt(s: string): (r: Option<int>)
    ensures r.Some? && r.value < 0 ==> '-' in s
    ensures |s| > 0 && IsDigit(s[0]) ==> r.Some? && r.value >= 0
  {
    var t := TrimStart(s);
    assert |t| > 0 ==> s[|s| - |t|] == t[0];
    ReadTrimmed(t)
  }

  /** What `parseInt` reads from text whose leading white space is already gone. */
  function ReadTrimmed(t: string): Option<int> {
    var digits := LeadingDigits(DropSign(t));
    var magnitude: int := DigitsValue(digits);
    if |digits| == 0 then None
    else if |t| > 0 && t[0] == '-' then Some(-magnitude)
    else Some(magnitude)
  }

  /** The text after one leading '+' or '-', if there is one. */
  function DropSign(t: string): string {
    if |t| > 0 && (t[0] == '+' || t[0] == '-') then t[1..] else t
  }

  /** `parseInt(s, 10) || 0`: NaN, +0 and -0 all become 0. */
  function ParseIntOrZero(s: string): (n: int)
    ensures ParseInt(s).None? ==> n == 0
    ensures n != 0 ==> ParseInt(s) == Some(n)
  {
    match ParseInt(s)
    case Some(v) => v
    case None => 0
  }

  /** The decimal numeral of `n` with no leading zeros: the reference `ParseIntOrZero` is checked against. */
  function NatToDecimal(n: nat): (d: string)
    ensures |d| > 0 && AllDigits(d)
  {
    if n < 10 then ['0' + n as char]
    else NatToDecimal(n / 10) + ['0' + (n % 10) as char]
  }

  lemma {:induction false} DigitsValueOfDecimal(n: nat)
    ensures DigitsValue(NatToDecimal(n)) == n
  {
    var d := NatToDecimal(n);
    if n >= 10 {
      DigitsValueOfDecimal(n / 10);
      assert d[..|d| - 1] == NatToDecimal(n / 10);
    }
  }

  lemma {:induction false} LeadingDigitsOfNumeral(d: string, tail: string)
    requires AllDigits(d)
    requires |tail| == 0 || !IsDigit(tail[0])
    ensures LeadingDigits(d + tail) == d
  {
    if |d| > 0 {
      assert (d + tail)[1..] == d[1..] + tail;
      LeadingDigitsOfNumeral(d[1..], tail);
      assert d == [d[0]] + d[1..];
    } else {
      assert d + tail == tail;
    }
  }

  /** Text that starts with a digit has no white space or sign for `parseInt` to skip. */
  lemma DigitFirstIsUntouched(s: string)
    requires |s| > 0 && IsDigit(s[0])
    ensures TrimStart(s) == s && DropSign(s) == s
  {
    assert !IsStrWhiteSpace(s[0]);
  }

  lemma {:induction false} ParseIntOfUnsigned(d: string, n: nat, tail: string)
    requires |d| > 0 && AllDigits(d) && DigitsValue(d) == n
    requires |tail| == 0 || !IsDigit(tail[0])
    ensures ParseInt(d + tail) == Some(n)
  {
    var s := d + tail;
    assert s[0] == d[0];
    DigitFirstIsUntouched(s);
    LeadingDigitsOfNumeral(d, tail);
  }

  /** A minus sign in front negates what the numeral after it reads as. */
  lemma {:induction false} ParseIntOfNegative(d: string, n: nat, tail: string)
    requires |d| > 0 && AllDigits(d) && DigitsValue(d) == n
    requires |tail| == 0 || !IsDigit(tail[0])
    ensures ParseInt("-" + (d + tail)) == Some(-(n as int))
  {
    var s := "-" + (d + tail);
    assert s[0] == '-';
    assert !IsStrWhiteSpace(s[0]);
    assert TrimStart(s) == s;
    assert DropSign(s) == d + tail;
    LeadingDigitsOfNumeral(d, tail);
  }

  /** A plus sign in front changes nothing about what the numeral after it reads as. */
  lemma {:induction false} ParseIntOfPlusSigned(d: string, n: nat, tail: string)
    requires |d| > 0 && AllDigits(d) && DigitsValue(d) == n
    requires |tail| == 0 || !IsDigit(tail[0])
    ensures ParseInt("+" + (d + tail)) == Some(n)
  {
    var s := "+" + (d + tail);
    assert s[0] == '+';
    assert !IsStrWhiteSpace(s[0]);
    assert TrimStart(s) == s;
    assert DropSign(s) == d + tail;
    LeadingDigitsOfNumeral(d, tail);
  }

  /**
   * `parseInt(s, 10) || 0` reads a decimal numeral back as its value, with a
   * '+', a '-' or no sign, whatever non-digit text follows it: the reason "3.00"
   * loads as quantity 3.
   */
  lemma {:induction false} ParseIntOrZeroReadsNumeral(d: string, tail: string)
    requires |d| > 0 && AllDigits(d)
    requires |tail| == 0 || !IsDigit(tail[0])
    ensures ParseIntOrZero(d + tail) == DigitsValue(d)
    ensures ParseIntOrZero("-" + (d + tail)) == -(DigitsValue(d) as int)
    ensures ParseIntOrZero("+" + (d + tail)) == DigitsValue(d)
  {
    var n := DigitsValue(d);
    assert ParseInt(d + tail) == Some(n) by {
      ParseIntOfUnsigned(d, n, tail);
    }
    assert ParseInt("-" + (d + tail)) == Some(-(n as int)) by {
      ParseIntOfNegative(d, n, tail);
    }
    assert ParseInt("+" + (d + tail)) == Some(n) by {
      ParseIntOfPlusSigned(d, n, tail);
    }
  }

  /** Trimming removes exactly a run of white space put in front of text that does not start with white space. */
  lemma {:induction false} TrimStartOfBlanks(w: string, s: string)
    requires forall k :: 0 <= k < |w| ==> IsStrWhiteSpace(w[k])
    requires |s| == 0 || !IsStrWhiteSpace(s[0])
    ensures TrimStart(w + s) == s
    decreases |w|
  {
    if |w| > 0 {
      assert (w + s)[0] == w[0];
      assert (w + s)[1..] == w[1..] + s;
      TrimStartOfBlanks(w[1..], s);
    } else {
      assert w + s == s;
    }
  }

  /** White space in front of the text changes nothing about what `parseInt` reads. */
  lemma {:induction false} ParseIntSkipsWhiteSpace(w: string, s: string)
    requires forall k :: 0 <= k < |w| ==> IsStrWhiteSpace(w[k])
    requires |s| == 0 || !IsStrWhiteSpace(s[0])
    ensures ParseInt(w + s) == ParseInt(s)
  {
    TrimStartOfBlanks(w, s);
    TrimStartOfBlanks("", s);
    assert "" + s == s;
  }

  /**
   * Each white-space character `parseInt` skips, from TAB to PARAGRAPH
   * SEPARATOR, including the byte order mark and the no-break space: the
   * quantity behind them still loads as 3.
   */
  lemma WhiteSpaceQuantityExample()
    ensures ParseIntOrZero("\t\U{000B}\U{000C}\U{FEFF} \U{00A0}\U{1680}\U{2000}\U{200A}\U{202F}\U{205F}\U{3000}\n\r\U{2028}\U{2029}" + "3") == 3
  {
    var w := "\t\U{000B}\U{000C}\U{FEFF} \U{00A0}\U{1680}\U{2000}\U{200A}\U{202F}\U{205F}\U{3000}\n\r\U{2028}\U{2029}";
    assert forall k :: 0 <= k < |w| ==> IsStrWhiteSpace(w[k]) by {
      forall k | 0 <= k < |w|
        ensures IsStrWhiteSpace(w[k])
      {
      }
    }
    assert ParseInt(w + "3") == ParseInt("3") by {
      ParseIntSkipsWhiteSpace(w, "3");
    }
    assert ParseIntOrZero("3") == 3 by {
      assert DigitsValue("3") == 3 by {
        assert "3"[..0] == "";
      }
      ParseIntOrZeroReadsNumeral("3", "");
      assert "3" + "" == "3";
    }
  }

  /** Every natural number survives a trip through its decimal numeral and `parseInt`. */
  lemma ParseIntOrZeroOfDecimal(n: nat)
    ensures ParseIntOrZero(NatToDecimal(n)) == n
    ensures ParseIntOrZero("-" + NatToDecimal(n)) == -(n as int)
  {
    var d := NatToDecimal(n);
    DigitsValueOfDecimal(n);
    ParseIntOrZeroReadsNumeral(d, "");
    assert d + "" == d;
  }

  /**
   * Where `parseInt` finds its first digit: after nothing but white space,
   * with at most one sign right in front of it.
   */
  predicate NumeralStartsAt(s: string, k: int) {
    && 0 <= k < |s| && IsDigit(s[k])
    && forall m :: 0 <= m < k ==> IsStrWhiteSpace(s[m]) || (m == k - 1 && (s[m] == '+' || s[m] == '-'))
  }

  /** `parseInt` is NaN exactly when no digit follows the leading white space and the optional sign. */
  lemma ParseIntIsNaNExactly(s: string)
    ensures ParseInt(s).None? <==> !exists k :: NumeralStartsAt(s, k)
  {
    if ParseInt(s).Some? {
      NumeralFound(s);
    } else {
      forall k | 0 <= k < |s|
        ensures !NumeralStartsAt(s, k)
      {
        NoNumeralAt(s, k);
      }
    }
  }

  /** A number read by `parseInt` began at the first non-blank character or just after a sign there. */
  lemma NumeralFound(s: string)
    requires ParseInt(s).Some?
    ensures exists k :: NumeralStartsAt(s, k)
  {
    var t := TrimStart(s);
    var w := |s| - |t|;
    var u := DropSign(t);
    var d := LeadingDigits(u);
    assert |d| > 0 && d[0] == u[0];
    if |t| > 0 && (t[0] == '+' || t[0] == '-') {
      assert t[0] == s[w] && t[1] == s[w + 1];
      assert NumeralStartsAt(s, w + 1);
    } else {
      assert t[0] == s[w];
      assert NumeralStartsAt(s, w);
    }
  }

  /** When `parseInt` is NaN, no index qualifies as the start of a numeral. */
  lemma NoNumeralAt(s: string, k: int)
    requires ParseInt(s).None? && 0 <= k < |s|
    ensures !NumeralStartsAt(s, k)
  {
    var t := TrimStart(s);
    var w := |s| - |t|;
    var u := DropSign(t);
    assert |LeadingDigits(u)| == 0;
    if k < w {
      assert IsStrWhiteSpace(s[k]);
    } else if k == w {
      assert t[0] == s[k];
      if t[0] != '+' && t[0] != '-' {
        assert u == t;
      }
    } else {
      assert t[0] == s[w] && !IsStrWhiteSpace(s[w]);
      if k == w + 1 && (t[0] == '+' || t[0] == '-') {
        assert t[1] == s[k];
        assert u == t[1..];
      }
    }
  }
}

=== FILE: optional.dfy ===
/** The optional value used wherever the decoder returns `null` or the store reads a field that may be absent. */
module Optional {

  datatype Option<+T> = None | Some(value: T)
}

=== FILE: packing.dfy ===
/**
 * The packing session store (`usePackingStore`): who is packing, which
 * invoice, which serials have been scanned so far and the product record each
 * scan returned, and the last error or success message.
 *
 * Every action is a pure transition. An action that awaits the backend takes
 * the awaited outcome as an argument (`Call<T>`) and returns a `Step`: the new
 * session, the boolean the action returns, and the request it posted (`None`
 * when a guard returned before any request was made). The `loading` flag and
 * the `await` boundaries are not modelled: each action is atomic.
 */
module Packing {
  import opened Optional
  import opened JsBuiltins
  import opened PackingTypes

  datatype Session = Session(
    currentStep: int,
    employee: Option<Employee>,
    invoice: Option<InvoiceDetails>,
    scannedSerials: seq<string>,
    scannedItemsDetails: seq<ICInventory>,
    error: Option<string>,
    successMessage: Option<string>)

  /** The store as created: step 1, nobody, no invoice, nothing scanned, no messages. */
  const Initial: Session := Session(1, None, None, [], [], None, None)

  /** What a `catch (e)` sees: `e.response?.data?.message` and `e.message`. */
  datatype Failure = Failure(responseMessage: Option<string>, message: Option<string>)

  /** The outcome of one awaited request: the response body, or the rejection. */
  datatype Call<T> = Responded(data: T) | Rejected(failure: Failure)

  /** The body posted to `/invoice/shipment-confirm`. */
  datatype ConfirmPayload = ConfirmPayload(invoiceNo: string, employeeCode: string, serials: seq<string>)

  /** The requests the store posts. */
  datatype Request =
    | ValidateEmployeeRequest(employeeId: string)
    | InvoiceDetailsRequest(invoiceNo: string)
    | ProductBySerialRequest(serialNumber: string)
    | ShipmentConfirmRequest(payload: ConfirmPayload)

  /** The result of an asynchronous action. */
  datatype Step = Step(state: Session, ok: bool, sent: Option<Request>)

  /** JavaScript truthiness of an optional string: present and not empty. */
  predicate Truthy(s: Option<string>) {
    s.Some? && s.value != ""
  }

  /** `throw new Error(message)` inside a `try`: no `response`, only a message. */
  function Thrown(message: string): Failure {
    Failure(None, Some(message))
  }

  /** `e.response?.data?.message || e.message || fallback`: the first non-empty of the three. */
  function CaughtMessage(f: Failure, fallback: string): (m: string)
    requires fallback != ""
    ensures m != ""
    ensures Truthy(f.responseMessage) ==> m == f.responseMessage.value
    ensures !Truthy(f.responseMessage) && Truthy(f.message) ==> m == f.message.value
    ensures !Truthy(f.responseMessage) && !Truthy(f.message) ==> m == fallback
  {
    if Truthy(f.responseMessage) then f.responseMessage.value
    else if Truthy(f.message) then f.message.value
    else fallback
  }

  // ---------------------------------------------------------------------------
  // Getters
  // ---------------------------------------------------------------------------

  /** `items.reduce((sum, item) => sum + item.quantity, 0)`, a left fold. */
  function SumQuantities(items: seq<ProductItem>): (total: int)
    ensures (forall k :: 0 <= k < |items| ==> items[k].quantity >= 0) ==>
      0 <= total && forall k :: 0 <= k < |items| ==> items[k].quantity <= total
  {
    if |items| == 0 then 0 else SumQuantities(items[..|items| - 1]) + items[|items| - 1].quantity
  }

  /** `totalTarget`: the summed quantities of the invoice, 0 without one (`?.` then `|| 0`). */
  function TotalTarget(st: Session): (target: int)
    ensures st.invoice.None? ==> target == 0
    ensures st.invoice.Some? && (forall k :: 0 <= k < |st.invoice.value.items| ==> st.invoice.value.items[k].quantity >= 0) ==>
      target >= 0
  {
    match st.invoice
    case None => 0
    case Some(inv) => SumQuantities(inv.items)
  }

  /** `totalScanned`. */
  function TotalScanned(st: Session): (n: nat)
    ensures n == 0 <==> st.scannedSerials == []
  {
    |st.scannedSerials|
  }

  /** `isComplete`. */
  predicate IsComplete(st: Session) {
    TotalScanned(st) == TotalTarget(st) && TotalTarget(st) > 0
  }

  // ---------------------------------------------------------------------------
  // validateEmployee
  // ---------------------------------------------------------------------------

  /**
   * `validateEmployee(code)`: the employee is replaced only on a successful
   * response that carries one; on any failure the previous employee stays and
   * the error explains why.
   */
  function ValidateEmployee(st: Session, code: string, response: Call<EmployeeResponse>): (r: Step)
    ensures r.sent == Some(ValidateEmployeeRequest(code))
    ensures r.ok <==> response.Responded? && response.data.success && response.data.employee.Some?
    ensures r.ok ==> r.state == st.(employee := response.data.employee, error := None)
    ensures !r.ok ==> r.state == st.(error := r.state.error) && Truthy(r.state.error)
    ensures response.Responded? && !r.ok ==> r.state.error == Some("Employee not found")
    ensures response.Rejected? ==> r.state.error == Some(CaughtMessage(response.failure, "Error validating employee"))
  {
    var sent := Some(ValidateEmployeeRequest(code));
    var cleared := st.(error := None);
    match response
    case Responded(data) =>
      if data.success && data.employee.Some? then
        Step(cleared.(employee := data.employee), true, sent)
      else
        Step(cleared.(error := Some(CaughtMessage(Thrown("Employee not found"), "Error validating employee"))), false, sent)
    case Rejected(f) =>
      Step(cleared.(error := Some(CaughtMessage(f, "Error validating employee"))), false, sent)
  }

  // ---------------------------------------------------------------------------
  // getInvoiceDetails
  // ---------------------------------------------------------------------------

  /** One response row as the store keeps it; the quantity is `parseInt(qty, 10) || 0`. */
  function ToProductItem(d: InvoiceApiDetail): ProductItem {
    ProductItem(d.itemCode, d.itemName, ParseIntOrZero(d.qty))
  }

  /** `details.map(...)`: one item per row, in row order. */
  function ToProductItems(details: seq<InvoiceApiDetail>): (items: seq<ProductItem>)
    ensures |items| == |details|
    ensures forall k :: 0 <= k < |details| ==> items[k] == ToProductItem(details[k])
  {
    seq(|details|, k requires 0 <= k < |details| => ToProductItem(details[k]))
  }

  /** `arCustomer?.name_1 || 'Unknown Customer'`. */
  function CustomerName(data: InvoiceApiResponse): (name: string)
    ensures name != ""
    ensures data.arCustomer.Some? && data.arCustomer.value.name1 != "" ==> name == data.arCustomer.value.name1
    ensures data.arCustomer.None? || data.arCustomer.value.name1 == "" ==> name == "Unknown Customer"
  {
    if data.arCustomer.Some? && data.arCustomer.value.name1 != "" then data.arCustomer.value.name1
    else "Unknown Customer"
  }

  /**
   * `getInvoiceDetails(invoiceNo)`: a response with a non-empty `doc_no`
   * replaces the invoice; anything else keeps the old one. The scans are never
   * touched, whatever the new invoice demands.
   */
  function GetInvoiceDetails(st: Session, invoiceNo: string, response: Call<Option<InvoiceApiResponse>>): (r: Step)
    ensures r.sent == Some(InvoiceDetailsRequest(invoiceNo))
    ensures r.ok <==> response.Responded? && response.data.Some? && Truthy(response.data.value.docNo)
    ensures r.ok ==>
      var data := response.data.value;
      r.state == st.(invoice := Some(InvoiceDetails(data.docNo.value, CustomerName(data), ToProductItems(data.details))),
                     error := None)
    ensures !r.ok ==> r.state == st.(error := r.state.error) && Truthy(r.state.error)
    ensures response.Responded? && !r.ok ==> r.state.error == Some("Invoice not found")
    ensures response.Rejected? ==> r.state.error == Some(CaughtMessage(response.failure, "Error fetching invoice"))
  {
    var sent := Some(InvoiceDetailsRequest(invoiceNo));
    var cleared := st.(error := None);
    match response
    case Responded(body) =>
      if body.Some? && Truthy(body.value.docNo) then
        var data := body.value;
        var inv := InvoiceDetails(data.docNo.value, CustomerName(data), ToProductItems(data.details));
        Step(cleared.(invoice := Some(inv)), true, sent)
      else
        Step(cleared.(error := Some(CaughtMessage(Thrown("Invoice not found"), "Error fetching invoice"))), false, sent)
    case Rejected(f) =>
      Step(cleared.(error := Some(CaughtMessage(f, "Error fetching invoice"))), false, sent)
  }

  // ---------------------------------------------------------------------------
  // scanProduct
  // ---------------------------------------------------------------------------

  /** The message of an exact duplicate scan. */
  function AlreadyScannedMessage(serial: string): string {
    "Serial " + serial + " already scanned."
  }

  /**
   * `scanProduct(serial)`. Two guards run before any request: the serial must
   * not be in `scannedSerials` already, and fewer serials than `totalTarget`
   * may have been scanned. Then the raw serial is looked up; a successful
   * lookup with a product record appends the serial and the record, at the
   * same index, and nothing else changes in the lists on any other path.
   */
  function ScanProduct(st: Session, serial: string, lookup: Call<ProductScanResponse>): (r: Step)
    ensures r.sent.Some? <==> serial !in st.scannedSerials && TotalScanned(st) < TotalTarget(st)
    ensures r.sent.Some? ==> r.sent == Some(ProductBySerialRequest(serial))
    ensures r.ok <==>
      && r.sent.Some?
      && lookup.Responded? && lookup.data.success && lookup.data.icInventory.Some?
    ensures r.ok ==>
      && r.state.scannedSerials == st.scannedSerials + [serial]
      && r.state.scannedItemsDetails == st.scannedItemsDetails + [lookup.data.icInventory.value]
      && r.state.error == None
    ensures !r.ok ==>
      && r.state.scannedSerials == st.scannedSerials
      && r.state.scannedItemsDetails == st.scannedItemsDetails
      && Truthy(r.state.error)
    ensures r.state == st.(scannedSerials := r.state.scannedSerials,
                           scannedItemsDetails := r.state.scannedItemsDetails,
                           error := r.state.error)
  {
    if serial in st.scannedSerials then
      Step(st.(error := Some(AlreadyScannedMessage(serial))), false, None)
    else if TotalScanned(st) >= TotalTarget(st) then
      Step(st.(error := Some("All items have been scanned.")), false, None)
    else
      var sent := Some(ProductBySerialRequest(serial));
      var cleared := st.(error := None);
      match lookup
      case Responded(data) =>
        if data.success && data.icInventory.Some? then
          Step(cleared.(scannedSerials := st.scannedSerials + [serial],
                        scannedItemsDetails := st.scannedItemsDetails + [data.icInventory.value]), true, sent)
        else
          var thrown := Thrown(if Truthy(data.message) then data.message.value else "Invalid Serial");
          Step(cleared.(error := Some(CaughtMessage(thrown, "Error scanning product"))), false, sent)
      case Rejected(f) =>
        Step(cleared.(error := Some(CaughtMessage(f, "Error scanning product"))), false, sent)
  }

  // ---------------------------------------------------------------------------
  // removeSerial
  // ---------------------------------------------------------------------------

  /**
   * `removeSerial(serial)`: `indexOf`, then `splice(index, 1)` on both lists.
   * An absent serial changes nothing; otherwise each list loses one entry and
   * nothing but the two lists changes.
   */
  function RemoveSerial(st: Session, serial: string): (r: Session)
    ensures serial !in st.scannedSerials ==> r == st
    ensures serial in st.scannedSerials ==> |r.scannedSerials| == |st.scannedSerials| - 1
    ensures serial in st.scannedSerials && |st.scannedItemsDetails| == |st.scannedSerials| ==>
      |r.scannedItemsDetails| == |r.scannedSerials|
    ensures r == st.(scannedSerials := r.scannedSerials, scannedItemsDetails := r.scannedItemsDetails)
  {
    var index := IndexOf(st.scannedSerials, serial);
    if index > -1 then
      st.(scannedSerials := RemoveAt(st.scannedSerials, index),
          scannedItemsDetails := RemoveAt(st.scannedItemsDetails, index))
    else st
  }

  // ---------------------------------------------------------------------------
  // confirmPacking
  // ---------------------------------------------------------------------------

  /**
   * `confirmPacking()`: without an invoice or an employee nothing is posted;
   * otherwise the payload carries the invoice's receipt number, the employee's
   * code and the scanned serials verbatim, in scan order. The error is not
   * cleared first, and neither list ever changes.
   */
  function ConfirmPacking(st: Session, response: Call<PackingConfirmationResponse>): (r: Step)
    ensures r.sent.Some? <==> st.invoice.Some? && st.employee.Some?
    ensures r.sent.Some? ==>
      r.sent == Some(ShipmentConfirmRequest(
        ConfirmPayload(st.invoice.value.receiptNumber, st.employee.value.code, st.scannedSerials)))
    ensures r.ok <==> r.sent.Some? && response.Responded? && response.data.success
    ensures r.ok ==> r.state == st.(successMessage := Some("Packing confirmed successfully!"))
    ensures !r.ok ==> r.state == st.(error := r.state.error) && Truthy(r.state.error)
    ensures r.sent.None? ==> r.state.error == Some("Missing invoice or employee information")
    ensures r.sent.Some? && response.Responded? && !response.data.success ==> r.state.error == Some("Confirmation failed")
    ensures r.sent.Some? && response.Rejected? ==>
      r.state.error == Some(CaughtMessage(response.failure, "Error confirming packing"))
  {
    if st.invoice.None? || st.employee.None? then
      Step(st.(error := Some(CaughtMessage(Thrown("Missing invoice or employee information"), "Error confirming packing"))),
           false, None)
    else
      var payload := ConfirmPayload(st.invoice.value.receiptNumber, st.employee.value.code, st.scannedSerials);
      var sent := Some(ShipmentConfirmRequest(payload));
      match response
      case Responded(data) =>
        if data.success then
          Step(st.(successMessage := Some("Packing confirmed successfully!")), true, sent)
        else
          Step(st.(error := Some(CaughtMessage(Thrown("Confirmation failed"), "Error confirming packing"))), false, sent)
      case Rejected(f) =>
        Step(st.(error := Some(CaughtMessage(f, "Error confirming packing"))), false, sent)
  }

  // ---------------------------------------------------------------------------
  // reset, resetScanning, changeInvoice
  // ---------------------------------------------------------------------------

  /** `reset()`: every field the store holds is cleared and the step goes back to 1. */
  function Reset(st: Session): (r: Session)
    ensures TotalScanned(r) == 0 && TotalTarget(r) == 0 && !IsComplete(r)
    ensures r.employee.None? && r.invoice.None?
  {
    st.(currentStep := 1, employee := None, invoice := None, scannedSerials := [], scannedItemsDetails := [],
        error := None, successMessage := None)
  }

  /** `resetScanning()`: empties both lists and both messages; step, employee and invoice stay. */
  function ResetScanning(st: Session): (r: Session)
    ensures TotalScanned(r) == 0 && TotalTarget(r) == TotalTarget(st)
    ensures r.scannedItemsDetails == [] && r.error.None? && r.successMessage.None?
    ensures r.currentStep == st.currentStep && r.employee == st.employee && r.invoice == st.invoice
  {
    st.(scannedSerials := [], scannedItemsDetails := [], error := None, successMessage := None)
  }

  /** `changeInvoice()`: like `reset()`, except that the employee is kept. */
  function ChangeInvoice(st: Session): (r: Session)
    ensures r.employee == st.employee
    ensures TotalScanned(r) == 0 && TotalTarget(r) == 0 && !IsComplete(r)
    ensures r.currentStep == 1 && r.error.None? && r.successMessage.None?
  {
    st.(currentStep := 1, invoice := None, scannedSerials := [], scannedItemsDetails := [],
        error := None, successMessage := None)
  }
}

=== FILE: packing_properties.dfy ===
/**
 * Invariants of the packing session store and the relations between its
 * actions: what a scan may append, what a removal undoes, what the
 * confirmation posts, and which invariants every action keeps.
 */
module PackingProperties {
  import opened Optional
  import opened JsBuiltins
  import opened PackingTypes
  import opened Packing

  /** `scannedSerials[i]` and `scannedItemsDetails[i]` describe the same scan. */
  predicate ListsAligned(st: Session) {
    |st.scannedSerials| == |st.scannedItemsDetails|
  }

  predicate NoDuplicateSerials(st: Session) {
    forall i, j :: 0 <= i < j < |st.scannedSerials| ==> st.scannedSerials[i] != st.scannedSerials[j]
  }

  /** What every action keeps, from the store's creation on. */
  predicate Consistent(st: Session) {
    ListsAligned(st) && NoDuplicateSerials(st)
  }

  /** No more serials than the invoice's summed quantity. */
  predicate WithinTarget(st: Session) {
    TotalScanned(st) <= TotalTarget(st)
  }

  // ---------------------------------------------------------------------------
  // The store as a machine
  // ---------------------------------------------------------------------------

  /** One call into the store, with the backend's answer when the action awaits one. */
  datatype Action =
    | ValidateEmployeeAction(code: string, employeeResponse: Call<EmployeeResponse>)
    | GetInvoiceDetailsAction(invoiceNo: string, invoiceResponse: Call<Option<InvoiceApiResponse>>)
    | ScanProductAction(serial: string, lookup: Call<ProductScanResponse>)
    | RemoveSerialAction(removed: string)
    | ConfirmPackingAction(confirmResponse: Call<PackingConfirmationResponse>)
    | ResetAction
    | ResetScanningAction
    | ChangeInvoiceAction

  function Apply(st: Session, a: Action): Session {
    match a
    case ValidateEmployeeAction(code, response) => ValidateEmployee(st, code, response).state
    case GetInvoiceDetailsAction(invoiceNo, response) => GetInvoiceDetails(st, invoiceNo, response).state
    case ScanProductAction(serial, lookup) => ScanProduct(st, serial, lookup).state
    case RemoveSerialAction(serial) => RemoveSerial(st, serial)
    case ConfirmPackingAction(response) => ConfirmPacking(st, response).state
    case ResetAction => Reset(st)
    case ResetScanningAction => ResetScanning(st)
    case ChangeInvoiceAction => ChangeInvoice(st)
  }

  /** The session after the actions of `trace`, in order. */
  function Run(st: Session, trace: seq<Action>): Session
    decreases |trace|
  {
    if |trace| == 0 then st else Run(Apply(st, trace[0]), trace[1..])
  }

  lemma InitialIsConsistent()
    ensures Consistent(Initial) && WithinTarget(Initial) && !IsComplete(Initial)
  {
  }

  /** `isComplete` holds only with an invoice loaded and at least one serial scanned, exactly as many as it demands. */
  lemma CompleteMeansTargetMet(st: Session)
    ensures IsComplete(st) <==>
      st.invoice.Some? && TotalScanned(st) > 0 && TotalScanned(st) == SumQuantities(st.invoice.value.items)
    ensures IsComplete(st) ==> WithinTarget(st)
  {
  }

  // ---------------------------------------------------------------------------
  // scanProduct
  // ---------------------------------------------------------------------------

  /** An exact duplicate is refused before any lookup, with its own message, and no list changes. */
  lemma ScanRejectsDuplicate(st: Session, serial: string, lookup: Call<ProductScanResponse>)
    requires serial in st.scannedSerials
    ensures var r := ScanProduct(st, serial, lookup);
      && !r.ok
      && r.sent.None?
      && r.state == st.(error := Some("Serial " + serial + " already scanned."))
  {
  }

  /**
   * Once as many serials as the target have been scanned, a new serial is
   * refused before any lookup; so a scan appends only below the target.
   */
  lemma ScanRespectsTarget(st: Session, serial: string, lookup: Call<ProductScanResponse>)
    ensures var r := ScanProduct(st, serial, lookup);
      serial !in st.scannedSerials && TotalScanned(st) >= TotalTarget(st) ==>
        !r.ok && r.sent.None? && r.state == st.(error := Some("All items have been scanned."))
    ensures ScanProduct(st, serial, lookup).ok ==> TotalScanned(st) < TotalTarget(st)
  {
  }

  /** A scan never takes the count past the target. */
  lemma ScanKeepsWithinTarget(st: Session, serial: string, lookup: Call<ProductScanResponse>)
    requires WithinTarget(st)
    ensures WithinTarget(ScanProduct(st, serial, lookup).state)
  {
  }

  /** Once complete, every new serial is refused with "All items have been scanned.". */
  lemma CompleteRefusesScans(st: Session, serial: string, lookup: Call<ProductScanResponse>)
    requires IsComplete(st) && serial !in st.scannedSerials
    ensures var r := ScanProduct(st, serial, lookup);
      !r.ok && r.state.error == Some("All items have been scanned.") && TotalScanned(r.state) == TotalScanned(st)
  {
  }

  /** When a guard refuses the scan, the lookup's answer is irrelevant: it was never asked. */
  lemma GuardedScanIgnoresLookup(st: Session, serial: string, l1: Call<ProductScanResponse>, l2: Call<ProductScanResponse>)
    requires serial in st.scannedSerials || TotalScanned(st) >= TotalTarget(st)
    ensures ScanProduct(st, serial, l1) == ScanProduct(st, serial, l2)
  {
  }

  /**
   * A refused lookup reports the response's message, else the thrown message,
   * else "Error scanning product"; an answer without a product reports its
   * own message, else "Invalid Serial".
   */
  lemma ScanFailureMessage(st: Session, serial: string, lookup: Call<ProductScanResponse>)
    requires serial !in st.scannedSerials && TotalScanned(st) < TotalTarget(st)
    ensures var r := ScanProduct(st, serial, lookup);
      match lookup
      case Rejected(f) =>
        r.state.error == Some(if Truthy(f.responseMessage) then f.responseMessage.value
                              else if Truthy(f.message) then f.message.value
                              else "Error scanning product")
      case Responded(data) =>
        !(data.success && data.icInventory.Some?) ==>
          r.state.error == Some(if Truthy(data.message) then data.message.value else "Invalid Serial")
  {
  }

  /** A successful scan puts the serial and its product record at the same, new, last index. */
  lemma ScanAppendsAtSameIndex(st: Session, serial: string, lookup: Call<ProductScanResponse>)
    requires ListsAligned(st)
    requires ScanProduct(st, serial, lookup).ok
    ensures var r := ScanProduct(st, serial, lookup).state;
      var n := |st.scannedSerials|;
      && ListsAligned(r)
      && r.scannedSerials[n] == serial
      && r.scannedItemsDetails[n] == lookup.data.icInventory.value
      && r.scannedSerials[..n] == st.scannedSerials
      && r.scannedItemsDetails[..n] == st.scannedItemsDetails
  {
  }

  lemma ScanKeepsConsistent(st: Session, serial: string, lookup: Call<ProductScanResponse>)
    requires Consistent(st)
    ensures Consistent(ScanProduct(st, serial, lookup).state)
  {
    var r := ScanProduct(st, serial, lookup);
    if r.ok {
      var s := r.state.scannedSerials;
      forall i, j | 0 <= i < j < |s|
        ensures s[i] != s[j]
      {
        if j == |st.scannedSerials| {
          assert s[i] == st.scannedSerials[i];
        }
      }
    }
  }

  // ---------------------------------------------------------------------------
  // removeSerial
  // ---------------------------------------------------------------------------

  /**
   * Removal hits the first index of the serial in both lists: the entries
   * before it and after it keep their relative order, and their partners
   * stay at matching indices.
   */
  lemma RemoveSerialHitsFirstIndex(st: Session, serial: string, i: int)
    requires ListsAligned(st)
    requires 0 <= i < |st.scannedSerials| && st.scannedSerials[i] == serial
    requires serial !in st.scannedSerials[..i]
    ensures var r := RemoveSerial(st, serial);
      && r.scannedSerials == st.scannedSerials[..i] + st.scannedSerials[i + 1..]
      && r.scannedItemsDetails == st.scannedItemsDetails[..i] + st.scannedItemsDetails[i + 1..]
      && ListsAligned(r)
  {
    assert IndexOf(st.scannedSerials, serial) == i;
  }

  /** Removing a serial that was scanned once leaves it no longer scanned. */
  lemma RemoveSerialForgetsIt(st: Session, serial: string)
    requires NoDuplicateSerials(st)
    ensures serial !in RemoveSerial(st, serial).scannedSerials
  {
    if serial in st.scannedSerials {
      var i := IndexOf(st.scannedSerials, serial);
      var r := RemoveSerial(st, serial).scannedSerials;
      forall k | 0 <= k < |r|
        ensures r[k] != serial
      {
        if k < i {
          assert r[k] == st.scannedSerials[k];
        } else {
          assert r[k] == st.scannedSerials[k + 1];
        }
      }
    }
  }

  lemma RemoveSerialKeepsConsistent(st: Session, serial: string)
    requires Consistent(st)
    ensures Consistent(RemoveSerial(st, serial))
  {
    var r := RemoveSerial(st, serial);
    if serial in st.scannedSerials {
      var i := IndexOf(st.scannedSerials, serial);
      var s := r.scannedSerials;
      forall a, b | 0 <= a < b < |s|
        ensures s[a] != s[b]
      {
        var a' := if a < i then a else a + 1;
        var b' := if b < i then b else b + 1;
        assert s[a] == st.scannedSerials[a'];
        assert s[b] == st.scannedSerials[b'];
      }
    }
  }

  /**
   * Removal undoes a successful scan: scanning a new serial and then removing
   * it gives back both lists exactly as they were.
   */
  lemma RemoveUndoesScan(st: Session, serial: string, lookup: Call<ProductScanResponse>)
    requires ListsAligned(st)
    requires ScanProduct(st, serial, lookup).ok
    ensures var after := RemoveSerial(ScanProduct(st, serial, lookup).state, serial);
      && after.scannedSerials == st.scannedSerials
      && after.scannedItemsDetails == st.scannedItemsDetails
  {
    var scanned := ScanProduct(st, serial, lookup).state;
    var n := |st.scannedSerials|;
    assert scanned.scannedSerials[..n] == st.scannedSerials;
    RemoveSerialHitsFirstIndex(scanned, serial, n);
  }

  // ---------------------------------------------------------------------------
  // confirmPacking
  // ---------------------------------------------------------------------------

  /** Confirming is retriable: a failed confirmation leaves everything but the error as it was. */
  lemma FailedConfirmKeepsSession(st: Session, response: Call<PackingConfirmationResponse>)
    requires !ConfirmPacking(st, response).ok
    ensures ConfirmPacking(st, response).state.(error := st.error) == st
  {
  }

  // ---------------------------------------------------------------------------
  // getInvoiceDetails
  // ---------------------------------------------------------------------------

  /** The summed quantities of the rows of an invoice response, each read with `parseInt(qty, 10) || 0`. */
  function SumParsedQuantities(details: seq<InvoiceApiDetail>): int {
    if |details| == 0 then 0
    else SumParsedQuantities(details[..|details| - 1]) + ParseIntOrZero(details[|details| - 1].qty)
  }

  lemma {:induction false} SumOfToProductItems(details: seq<InvoiceApiDetail>)
    ensures SumQuantities(ToProductItems(details)) == SumParsedQuantities(details)
    decreases |details|
  {
    if |details| > 0 {
      var n := |details|;
      var items := ToProductItems(details);
      var front := ToProductItems(details[..n - 1]);
      assert items[..n - 1] == front by {
        forall k | 0 <= k < n - 1
          ensures items[..n - 1][k] == front[k]
        {
          assert details[..n - 1][k] == details[k];
        }
      }
      SumOfToProductItems(details[..n - 1]);
    }
  }

  /**
   * A loaded invoice sets the target to the rows' parsed quantities, summed;
   * the scans already made are kept as they were.
   */
  lemma LoadedInvoiceTarget(st: Session, invoiceNo: string, response: Call<Option<InvoiceApiResponse>>)
    requires GetInvoiceDetails(st, invoiceNo, response).ok
    ensures var r := GetInvoiceDetails(st, invoiceNo, response).state;
      && TotalTarget(r) == SumParsedQuantities(response.data.value.details)
      && r.scannedSerials == st.scannedSerials
      && r.scannedItemsDetails == st.scannedItemsDetails
  {
    SumOfToProductItems(response.data.value.details);
  }

  /** A quantity sent as "3.00" loads as 3. */
  lemma DecimalQuantityExample()
    ensures ParseIntOrZero("3.00") == 3
  {
    var qty := "3.00";
    assert "3" + ".00" == qty;
    assert DigitsValue("3") == 3 by {
      assert "3"[..0] == "";
    }
    ParseIntOrZeroReadsNumeral("3", ".00");
  }

  /** A quantity with no digit after its sign is NaN to `parseInt` and loads as 0. */
  lemma NonNumericQuantityExample()
    ensures ParseIntOrZero("-") == 0
  {
    var qty := "-";
    assert TrimStart(qty) == qty;
    assert DropSign(qty) == "";
  }

  /**
   * Loading an invoice can leave more serials scanned than it demands,
   * because the scans are not cleared: here one serial is scanned against a
   * one-unit invoice and a zero-unit invoice is then loaded.
   */
  lemma LoadingInvoiceCanExceedTarget(item: ICInventory)
    ensures var response := Responded(Some(InvoiceApiResponse(Some("INV-2"), None, [InvoiceApiDetail("A", "Product A", "0")])));
      var st := Initial.(invoice := Some(InvoiceDetails("INV-1", "C", [ProductItem("A", "Product A", 1)])),
                         scannedSerials := ["SN-1"], scannedItemsDetails := [item]);
      && WithinTarget(st) && Consistent(st)
      && !WithinTarget(GetInvoiceDetails(st, "INV-2", response).state)
  {
    var response := Responded(Some(InvoiceApiResponse(Some("INV-2"), None, [InvoiceApiDetail("A", "Product A", "0")])));
    var line := ProductItem("A", "Product A", 1);
    var st := Initial.(invoice := Some(InvoiceDetails("INV-1", "C", [line])),
                       scannedSerials := ["SN-1"], scannedItemsDetails := [item]);
    assert TotalTarget(st) == 1 by {
      assert [line][..0] == [];
    }
    var details := [InvoiceApiDetail("A", "Product A", "0")];
    assert SumParsedQuantities(details) == 0 by {
      assert details[..0] == [];
      assert DigitsValue("0") == 0 by {
        assert "0"[..0] == "";
      }
      ParseIntOrZeroReadsNumeral("0", "");
      assert "0" + "" == "0";
    }
    LoadedInvoiceTarget(st, "INV-2", response);
  }

  // ---------------------------------------------------------------------------
  // The store's test scenarios that the store itself implements
  // ---------------------------------------------------------------------------

  /** A successful validation installs the employee; a 404 carrying a message reports it. */
  lemma EmployeeValidationExamples()
    ensures var emp := Employee("EMP001", "John Doe");
      var r := ValidateEmployee(Initial, "EMP001", Responded(EmployeeResponse(true, Some(emp))));
      r.ok && r.state.employee == Some(emp) && r.sent == Some(ValidateEmployeeRequest("EMP001"))
    ensures var r := ValidateEmployee(Initial, "INVALID", Rejected(Failure(Some("Employee not found"), None)));
      !r.ok && r.state.employee.None? && r.state.error == Some("Employee not found")
  {
  }

  /**
   * Two serials scanned against invoice INV-001: the confirmation posts the
   * two raw serials as they are, not one record per invoice line.
   */
  lemma ConfirmExample(st: Session)
    requires st.employee == Some(Employee("EMP001", "John Doe"))
    requires st.invoice.Some? && st.invoice.value.receiptNumber == "INV-001"
    requires st.scannedSerials == ["SN-A-001", "SN-B-001"]
    ensures var r := ConfirmPacking(st, Responded(PackingConfirmationResponse(true)));
      && r.ok
      && r.state.successMessage == Some("Packing confirmed successfully!")
      && r.sent == Some(ShipmentConfirmRequest(ConfirmPayload("INV-001", "EMP001", ["SN-A-001", "SN-B-001"])))
  {
  }

  // ---------------------------------------------------------------------------
  // reset, resetScanning, changeInvoice
  // ---------------------------------------------------------------------------

  /** `reset()` forgets everything, so resetting twice is resetting once. */
  lemma ResetIsInitial(st: Session)
    ensures Reset(st) == Initial
    ensures Reset(Reset(st)) == Reset(st)
  {
  }

  /** `changeInvoice()` is `reset()` with the employee kept. */
  lemma ChangeInvoiceIsResetKeepingEmployee(st: Session)
    ensures ChangeInvoice(st) == Reset(st).(employee := st.employee)
    ensures ChangeInvoice(st).(employee := None) == Initial
  {
  }

  /**
   * Clearing the scans first makes no difference to a later `reset()` or
   * `changeInvoice()`, and clearing them twice is clearing them once.
   */
  lemma ResetScanningIsAbsorbed(st: Session)
    ensures Reset(ResetScanning(st)) == Reset(st)
    ensures ChangeInvoice(ResetScanning(st)) == ChangeInvoice(st)
    ensures ResetScanning(ResetScanning(st)) == ResetScanning(st)
    ensures ResetScanning(Reset(st)) == Reset(st)
  {
  }


  // ---------------------------------------------------------------------------
  // Whole-machine invariants
  // ---------------------------------------------------------------------------

  /** Every action keeps the two lists aligned and free of duplicate serials. */
  lemma ApplyKeepsConsistent(st: Session, a: Action)
    requires Consistent(st)
    ensures Consistent(Apply(st, a))
  {
    match a
    case ScanProductAction(serial, lookup) => ScanKeepsConsistent(st, serial, lookup);
    case RemoveSerialAction(serial) => RemoveSerialKeepsConsistent(st, serial);
    case _ =>
  }

  /** Every action except `getInvoiceDetails` keeps the count within the target. */
  lemma ApplyKeepsWithinTarget(st: Session, a: Action)
    requires WithinTarget(st)
    requires !a.GetInvoiceDetailsAction?
    ensures WithinTarget(Apply(st, a))
  {
  }

  /** From any consistent session, in particular the initial one, every run stays consistent. */
  lemma {:induction false} RunKeepsConsistent(st: Session, trace: seq<Action>)
    requires Consistent(st)
    ensures Consistent(Run(st, trace))
    decreases |trace|
  {
    if |trace| > 0 {
      ApplyKeepsConsistent(st, trace[0]);
      RunKeepsConsistent(Apply(st, trace[0]), trace[1..]);
    }
  }

  /** A run that never loads an invoice keeps the count within the target. */
  lemma {:induction false} RunWithoutLoadKeepsWithinTarget(st: Session, trace: seq<Action>)
    requires WithinTarget(st)
    requires forall k :: 0 <= k < |trace| ==> !trace[k].GetInvoiceDetailsAction?
    ensures WithinTarget(Run(st, trace))
    decreases |trace|
  {
    if |trace| > 0 {
      ApplyKeepsWithinTarget(st, trace[0]);
      RunWithoutLoadKeepsWithinTarget(Apply(st, trace[0]), trace[1..]);
    }
  }
}

=== FILE: packing_types.dfy ===
/**
 * The record shapes of the packing client that the store reads or writes,
 * with only the fields the store touches. Absent or `undefined` fields that the
 * store tests for are `Option`s.
 */
module PackingTypes {
  import opened Optional

  datatype Employee = Employee(code: string, name: string)

  /** One invoice line as the store keeps it: `{product_id, product_name, quantity}`. */
  datatype ProductItem = ProductItem(productId: string, productName: string, quantity: int)

  /** The invoice as the store keeps it: `{receipt_number, customer_name, items}`. */
  datatype InvoiceDetails = InvoiceDetails(receiptNumber: string, customerName: string, items: seq<ProductItem>)

  /** The product master record the serial lookup returns. */
  datatype ICInventory = ICInventory(
    code: string,
    name1: string,
    status: int,
    icSerialNo: int,
    isPharmaSerialization: int)

  /** Body of `/employee/validate-employee`. */
  datatype EmployeeResponse = EmployeeResponse(success: bool, employee: Option<Employee>)

  datatype ArCustomer = ArCustomer(code: string, name1: string)

  /** One row of `details` in the invoice response: the fields the store maps. */
  datatype InvoiceApiDetail = InvoiceApiDetail(itemCode: string, itemName: string, qty: string)

  /** Body of `/invoice/get-invoice-details`. */
  datatype InvoiceApiResponse = InvoiceApiResponse(
    docNo: Option<string>,
    arCustomer: Option<ArCustomer>,
    details: seq<InvoiceApiDetail>)

  /** Body of `/product/get-product-by-serial`. */
  datatype ProductScanResponse = ProductScanResponse(
    success: bool,
    message: Option<string>,
    icInventory: Option<ICInventory>)

  /** Body of `/invoice/shipment-confirm`. */
  datatype PackingConfirmationResponse = PackingConfirmationResponse(success: bool)
}
